=== FILE: README.md ===
# WordStrandClone game store in Dafny

This project models the session engine of WordStrandClone, a word-strand
puzzle. It lives in `src/store/gameStore.ts`: a Zustand store that holds
the following state, using the data shapes of `src/types.ts`:

- a 4-by-4 board of letter tiles;
- the current theme;
- the words found so far;
- the score, the hint count and a game-over flag.

The model covers the store's five synchronous actions:

- `selectLetter(row, col)` grows, rewinds or ignores the chain of selected tiles.
- `submitWord()` spells the chain, judges it against the theme, scores it and clears the selection.
- `clearSelection()`, `useHint()` and `resetGame()`.

It also covers the helpers they rely on: `isAdjacent`, `createInitialLetters` and the built-in sample theme.

Each action is a pure function from the state before to the state after.
Zustand's `set` merges the returned fields into the state, so the model
writes each action as a record update of exactly those fields. The
selection lives on the tiles: a tile has an `isSelected` flag and a rank,
`selectionOrder`. The store reads the chain back by flattening the board,
keeping the selected tiles and sorting them by rank. The model does the
same in these steps:

- `Flat` flattens the board.
- `Selected` keeps the selected tiles.
- `SortByRank` is a stable sort keyed on `selectionOrder ?? 0`.

On top of that, the model defines an abstract view: the chain as the
sequence of positions it visits (`ChainPositions`). `ChainStep` says how one
tap moves that sequence.

The main results are:

- **Rank invariant.** Every action applied to a state that satisfies it keeps it, and the initial state satisfies it. A rank is present exactly on the selected tiles, and with k selected tiles the ranks are 0, 1, ..., k - 1, each on one tile.
- **Refinement.** On a board that keeps the rank invariant, where every tile records its own cell, `selectLetter` moves the chain of positions exactly as `ChainStep` does.
- **Path.** In every state reachable from the initial one, the chain is a path of touching tiles and never visits a cell twice. The proofs need the rank invariant and tiles recording their own cells for this; without them a tap can reorder the chain.
- **`submitWord` outcome.** The proofs give its exact outcome, including the verdict, the score rule and the clearing of the selection. Found words stay free of repeats. Outside a reset, the score never drops and found words are only ever appended to.
- **Tile ids.** Ids are the decimal row, a hyphen and the decimal column, and they can be parsed back to that cell, so no two cells share one.
- **Worked runs.** Two runs on the starting board are proved: spelling BLUE along the second row, which records the word and scores 40, and a tap two rows from the chain, which is ignored.

The files follow the program's structure:

- `wrappers.dfy`: `Option` and `Result`.
- `types.dfy`: the data shapes from `src/types.ts`.
- `tile_ids.dfy`: tile ids.
- `adjacency.dfy`: `isAdjacent`.
- `layout.dfy`: the board, `flat()`, the row-by-row maps, and `createInitialLetters`.
- `rank_sort.dfy`: the rank sort.
- `chain.dfy`: the chain on the flattened board and the rank invariant.
- `selection.dfy`: `selectLetter` and clearing, on the board and against the chain view.
- `judge.dfy`: word judging and scoring.
- `game_store.dfy`: the state, the actions, runs of actions and the session invariant.
- `scenarios.dfy`: the worked runs.

Two behaviours of the store's code are modelled as written:

- `useHint` (src/store/gameStore.ts:245-248) takes a hint even when none are
  left, so the count goes below zero after the third hint.
- `resetGame` (src/store/gameStore.ts:250-257) never writes `theme`, so the
  current theme survives a reset.

## Model

| member | source | states |
|---|---|---|
| TileIds.ParseNatToString | src/store/gameStore.ts:81 | the decimal text a template literal prints for a row or column number reads back as that number |
| TileIds.ParseIdOf | src/store/gameStore.ts:81 | the id `${row}-${col}` splits at its hyphen back into the tile's row and column |
| TileIds.IdOfInjective | src/store/gameStore.ts:81 | two cells get the same id exactly when they are the same cell |
| Adjacency.IsAdjacent | src/store/gameStore.ts:90-97 | `isAdjacent` holds exactly when the two positions are at king-move (Chebyshev) distance 1 |
| Adjacency.AdjacentIffNeighbour | src/store/gameStore.ts:90-97 | adjacency holds exactly for the eight neighbours one row and/or column step away |
| Adjacency.AdjacencySymmetric | src/store/gameStore.ts:90-97 | adjacency is symmetric |
| Adjacency.AdjacencyIrreflexive | src/store/gameStore.ts:90-97 | no tile is adjacent to itself |
| Layout.FlatCell | src/store/gameStore.ts:165-166 | in `letters.flat()` the tile at (row, col) sits at the row's start plus col |
| Layout.FlatIndexCell | src/store/gameStore.ts:165-166 | every position of `letters.flat()` comes from some cell of the board |
| Layout.FlatMapLetters | src/store/gameStore.ts:205-211 | mapping every tile row by row and then flattening equals flattening and then mapping |
| Layout.FlatSetCell | src/store/gameStore.ts:179-180 | updating one cell of the board updates exactly the matching entry of the flattened board |
| Layout.BuildLettersFresh | src/store/gameStore.ts:79-87 | a board built from a character grid keeps the characters, selects nothing, gives each tile its own cell as position and `${row}-${col}` as id, and no two tiles share an id |
| Layout.InitialLetters | src/store/gameStore.ts:71-88 | `createInitialLetters` gives the 4-by-4 RAIN/BLUE/OWGD/YERN board with nothing selected or ranked and every tile at its own cell |
| RankSort.InsertStablePermutes | src/store/gameStore.ts:168 | inserting a tile into the sorted prefix adds exactly that tile |
| RankSort.InsertStableSorted | src/store/gameStore.ts:168 | inserting into a rank-ordered sequence keeps it rank-ordered |
| RankSort.SortByRankPermutes | src/store/gameStore.ts:168 | the rank sort keeps every tile, as often as it occurs |
| RankSort.SortByRankSorted | src/store/gameStore.ts:168 | the rank sort's output is ordered by `selectionOrder ?? 0` |
| RankSort.InsertStableKeepsDistinct | src/store/gameStore.ts:168 | inserting a tile whose rank is new keeps ranks pairwise distinct |
| RankSort.SortByRankDistinct | src/store/gameStore.ts:168 | sorting keeps ranks pairwise distinct |
| RankSort.SortByRankStrict | src/store/gameStore.ts:168 | sorting tiles with pairwise distinct ranks yields strictly increasing ranks |
| RankSort.StrictKeysAreIndices | src/store/gameStore.ts:168 | a strictly increasing run of n ranks all below n is exactly 0, 1, ..., n - 1 |
| Chain.Selected | src/store/gameStore.ts:165-167 | a tile is among the filtered tiles exactly when it is on the board and selected |
| Chain.SelectedCounts | src/store/gameStore.ts:165-167 | `filter` keeps every selected tile exactly as often as it occurs on the board and drops every unselected one |
| Chain.SelectedCount | src/store/gameStore.ts:165-167 | with ranks on selected tiles only and no rank twice, there are as many selected tiles as distinct ranks |
| Chain.SelectedKeysDistinct | src/store/gameStore.ts:165-167 | under the same conditions the selected tiles carry pairwise distinct ranks |
| Chain.ChainRanks | src/store/gameStore.ts:165-168 | under the rank invariant the i-th entry of the sorted selection is a selected tile of the board with rank i |
| Chain.ChainEntry | src/store/gameStore.ts:165-168 | under the rank invariant the tile with rank n is entry n of the sorted selection |
| Chain.TruncateChain | src/store/gameStore.ts:150-160 | on tiles satisfying the rank invariant, unselecting every tile ranked at or above a present rank keeps the rank invariant and leaves exactly the chain's prefix below that rank |
| Chain.ExtendChain | src/store/gameStore.ts:179-180 | on tiles satisfying the rank invariant, giving an unselected tile the next rank keeps the rank invariant and appends that tile to the chain |
| Chain.ClearChain | src/store/gameStore.ts:205-211 | unselecting every tile gives a well-formed, empty chain |
| Selection.SelectOnBoard | src/store/gameStore.ts:142-185 | a tap fails exactly when (row, col) is outside the board, where the source throws; a successful tap never changes an id, character or position |
| Selection.ClearBoard | src/store/gameStore.ts:236-242 | after clearing, no tile is selected or ranked, and ids, characters and positions are as before |
| Selection.ClearBoardEmptiesChain | src/store/gameStore.ts:236-242 | after clearing, the rank invariant holds and the chain is empty, whatever the board held |
| Selection.SelectedTileInChain | src/store/gameStore.ts:148-149 | on a well-ranked board a selected tile has a rank below the chain length and is the chain entry at that rank |
| Selection.SelectSelectedTruncates | src/store/gameStore.ts:147-161 | on a well-ranked board, tapping a selected tile of rank r keeps the rank invariant, makes the chain its prefix of length r, leaves a tile selected exactly when it was and its rank is below r, and leaves those tiles untouched |
| Selection.ReselectTailOrHead | src/store/gameStore.ts:147-161 | on a well-ranked board, re-tapping the chain's last tile removes just that tile; re-tapping its first tile empties the chain |
| Selection.SelectExtends | src/store/gameStore.ts:164-181 | on a well-ranked board, tapping an unselected tile when the chain is empty or the tile touches the chain's last tile selects it with rank equal to the old chain length, appends it to the chain, keeps the rank invariant, and changes no other cell |
| Selection.SelectUnselectedChangesIff | src/store/gameStore.ts:170-184 | a tap on an unselected tile changes the board exactly when the chain is empty or the tile touches the chain's last tile; otherwise the state is returned as it was |
| Selection.SelectKeepsRanks | src/store/gameStore.ts:142-185 | on a well-ranked board, every successful tap keeps the rank invariant |
| Selection.SelectKeepsPath | src/store/gameStore.ts:170-181 | on a well-ranked board whose tiles record their own cells and whose chain is a path, every successful tap keeps the chain a path of touching tiles |
| Selection.ChainEntryCell | src/store/gameStore.ts:165-168 | on a well-ranked board whose tiles record their own cells, the chain's i-th position is a cell of the board holding the chain's i-th tile |
| Selection.ChainPositionsRefine | src/store/gameStore.ts:165-168 | on a well-ranked board whose tiles record their own cells, a cell carries rank i exactly when the chain's i-th position is that cell |
| Selection.SelectedCellInChain | src/store/gameStore.ts:148-168 | on a well-ranked board whose tiles record their own cells, a selected cell is one the chain visits |
| Selection.ChainVisitsDistinctCells | src/store/gameStore.ts:165-168 | on a well-ranked board whose tiles record their own cells, the chain visits cells of the board, none twice |
| Selection.SelectRefinesChainStep | src/store/gameStore.ts:142-185 | on a well-ranked board whose tiles record their own cells, the chain of positions after a tap on the board is `ChainStep` of the chain before: cut back to before a visited cell, extended by an adjacent one, otherwise unchanged |
| Selection.UnselectedBoardWellRanked | src/store/gameStore.ts:83-84 | a board with nothing selected and no rank satisfies the rank invariant and has an empty chain |
| WordJudge.Spell | src/store/gameStore.ts:202 | the empty chain spells the empty word, and when no tile is empty the word has at least one character per tile |
| WordJudge.SpellSingle | src/store/gameStore.ts:202 | a chain of one tile spells exactly that tile's string |
| WordJudge.SpellAppend | src/store/gameStore.ts:202 | the word of a concatenated chain is the concatenation of the words; with `SpellSingle` this makes the word the tiles' strings joined in chain order, whatever strings the tiles hold |
| WordJudge.SpellStartsWithFirst | src/store/gameStore.ts:202 | the word starts with the first tile's string |
| WordJudge.Accepts | src/store/gameStore.ts:214-217 | a word is accepted exactly when it equals the spangram or some entry of the theme's word list, and equals no entry of the found words |
| WordJudge.ScoreIncrease | src/store/gameStore.ts:218-219 | the spangram earns 50, whatever its length; any other word earns ten per character; every award is a multiple of ten, and only an empty non-spangram word earns nothing |
| WordJudge.SpellSingleLetters | src/store/gameStore.ts:202 | when each tile holds one character, the joined word has one character per tile, in chain order |
| GameStore.SelectLetter | src/store/gameStore.ts:142-185 | `selectLetter` fails exactly off the board; on success it changes only the board and never an id, character or position |
| GameStore.ClearSelection | src/store/gameStore.ts:234-243 | `clearSelection` changes only the board, keeps the layout, and leaves a well-formed, empty chain |
| GameStore.UseHint | src/store/gameStore.ts:245-248 | `useHint` changes only the hint count, which drops by one with no floor |
| GameStore.InitialState | src/store/gameStore.ts:134-140 | the state the store is created with satisfies the session invariant and has an empty chain |
| GameStore.SubmitWord | src/store/gameStore.ts:191-232 | with nothing selected the state is unchanged; otherwise every flag and rank is cleared, the layout, theme, hints and game-over flag are kept, and the word is appended and scored (50 for the spangram, else 10 per character) exactly when it is a theme word not yet found, with found words and score kept otherwise |
| GameStore.SubmittedWordFollowsRanks | src/store/gameStore.ts:193-202 | on a well-ranked board, the submitted word is read from tiles of rank 0, 1, ..., k - 1 in that order |
| GameStore.RepeatSubmissionRejected | src/store/gameStore.ts:214-216 | submitting an already found word leaves found words and score alone and only clears the selection |
| GameStore.SubmitMonotone | src/store/gameStore.ts:213-231 | submitting keeps found words free of repeats, only appends to them, and never lowers the score |
| GameStore.ScorePerTile | src/store/gameStore.ts:218-219 | with one character per tile an accepted non-spangram word earns 10 points per selected tile, the spangram 50 |
| GameStore.ResetRestoresInitial | src/store/gameStore.ts:250-257 | whatever came before, `resetGame` restores the session invariant and empties the chain, and a second reset changes nothing |
| GameStore.ResetGame | src/store/gameStore.ts:250-257 | `resetGame` yields exactly the initial state except that the current theme is kept |
| GameStore.StepKeepsInvariant | src/store/gameStore.ts:142-257 | every action keeps the session invariant: rank invariant, tiles recording their cells, chain a path, found words without repeats |
| GameStore.RunKeepsInvariant | src/store/gameStore.ts:134-257 | every state reachable from one satisfying the session invariant satisfies it |
| GameStore.StepMonotone | src/store/gameStore.ts:142-248 | no action but a reset lowers the score, drops a found word or adds a repeat |
| GameStore.RunWithoutResetMonotone | src/store/gameStore.ts:142-248 | along any run without a reset the score never drops and found words are only appended to |
| GameStore.HintsCountDown | src/store/gameStore.ts:245-248 | n hint requests take exactly n hints and change nothing else |
| Scenarios.InitialIsFreshStart | src/store/gameStore.ts:134-140 | the initial store has the fresh-start properties the runs below build on |
| Scenarios.SpellBlue | src/store/gameStore.ts:142-232 | tapping B, L, U, E along the second row of the starting board and submitting records BLUE, scores 40 and clears the selection |
| Scenarios.NonAdjacentTapIgnored | src/store/gameStore.ts:170-184 | after tapping (0, 0) on the starting board, a tap at (2, 2) leaves the state exactly as it was |

## Left out

- `fetchThemeAndLetters` and `refreshThemeAndLetters` (src/store/gameStore.ts:9-62, 187-189) are left out. They are an asynchronous call to a language-model service, `JSON.parse` of its reply and console logging: network I/O with no contract in the code. The model keeps the theme as part of the state and never replaces it.
- `areLettersConnected` (src/store/gameStore.ts:99-123) is left out because nothing calls it. Its `index === letters.length` base case is never reached, so it does not compute connectivity. The model proves the path property it was meant to check from the selection rule instead (`Selection.SelectKeepsPath`).
- `isGameOver` is only ever written `false`: the initial state and `resetGame` (src/store/gameStore.ts:256) set it so, and every other action carries it over. No action of the store sets it to true, so the model states no game-over rule.
- Zustand's `create`/`set` plumbing is replaced by pure functions on the state.
- Aliasing is not modelled. `selectLetter` copies the rows but not the tile objects, then updates the flag and rank of the old tiles in place. The model describes only the state the store ends up with, not the aliasing with the previous state object.
- A throw is modelled as `Failure(CellOutOfGrid(row, col))`, and a run of actions keeps the state when it happens. The source's `selectLetter` throws a `TypeError` when (row, col) is off the board. Non-integer coordinates (NaN, fractions) are not modelled: coordinates are integers.
- `GameStore.UseHint`: numbers are unbounded integers. JavaScript doubles and their precision limits for `score` and `hints` are not modelled.
- `selectionOrder` is an `Option<nat>`. The store only ever writes a chain length there, so negative or fractional ranks cannot arise from its actions.
- `WordJudge.ScoreIncrease` and `GameStore.SubmitWord`: the score rule counts the characters of a Dafny string, while the source's `word.length` counts UTF-16 code units, so a word with characters outside the Basic Multilingual Plane would score more in the source. The two agree on the single-letter tiles of the starting board, which is why `GameStore.ScorePerTile` can speak of ten points per tile there.
- `RankSort.SortByRankSorted`: the rank sort is written as a stable insertion sort. The lemmas prove that it is an ordered permutation, but they do not state stability as a lemma. Stability only matters on a board that breaks the rank invariant, where two selected tiles share a rank.
- The React components `src/components/GameBoard.tsx`, `src/components/ScoreBoard.tsx` and `src/App.tsx` are presentation and are not part of this model. This includes GameBoard's dictionary lookup before a submit.

=== FILE: adjacency.dfy ===
/**
 * Eight-directional adjacency between grid positions: two tiles touch when
 * they differ by at most one row and at most one column and are not the
 * same tile.
 */
module Adjacency {
  import opened Types

  function Abs(x: int): (r: nat)
    ensures r == x || r == -x
  {
    if x < 0 then -x else x
  }

  /** The store's `isAdjacent`: exactly the tiles at Chebyshev distance one. */
  predicate IsAdjacent(a: Pos, b: Pos): (r: bool)
    ensures r <==> ChebyshevDistance(a, b) == 1
  {
    var rowDiff := Abs(a.row - b.row);
    var colDiff := Abs(a.col - b.col);
    rowDiff <= 1 && colDiff <= 1 && !(rowDiff == 0 && colDiff == 0)
  }

  /** King-move distance: the larger of the row and column distances. */
  function ChebyshevDistance(a: Pos, b: Pos): nat {
    var rowDiff := Abs(a.row - b.row);
    var colDiff := Abs(a.col - b.col);
    if rowDiff < colDiff then colDiff else rowDiff
  }

  /** The eight steps from a tile to its neighbours. */
  const Steps: seq<(int, int)> :=
    [(-1, -1), (-1, 0), (-1, 1), (0, -1), (0, 1), (1, -1), (1, 0), (1, 1)]

  function Neighbours(p: Pos): set<Pos> {
    set s | s in Steps :: Pos(p.row + s.0, p.col + s.1)
  }

  /** Adjacency is exactly membership in the eight-neighbourhood. */
  lemma {:induction false} AdjacentIffNeighbour(a: Pos, b: Pos)
    ensures IsAdjacent(a, b) <==> b in Neighbours(a)
  {
    var step := (b.row - a.row, b.col - a.col);
    if IsAdjacent(a, b) {
      assert step in Steps by {
        assert -1 <= step.0 <= 1 && -1 <= step.1 <= 1 && step != (0, 0);
      }
      assert b == Pos(a.row + step.0, a.col + step.1);
    }
    if b in Neighbours(a) {
      var s :| s in Steps && b == Pos(a.row + s.0, a.col + s.1);
    }
  }

  lemma AdjacencySymmetric(a: Pos, b: Pos)
    ensures IsAdjacent(a, b) <==> IsAdjacent(b, a)
  {
  }

  lemma AdjacencyIrreflexive(a: Pos)
    ensures !IsAdjacent(a, a)
  {
  }
}

=== FILE: chain.dfy ===
/**
 * The selection chain on the flattened board: which tiles are selected,
 * the order the store reads them in, and the rank invariant every store
 * action keeps — a rank is present exactly on selected tiles, and the
 * ranks of the k selected tiles are 0, 1, ..., k - 1, each once.
 */
module Chain {
  import opened Wrappers
  import opened Types
  import opened RankSort

  /** `tiles.filter(l => l.isSelected)`. */
  function Selected(tiles: seq<Letter>): (t: seq<Letter>)
    ensures |t| <= |tiles|
    ensures forall x :: x in t <==> x in tiles && x.isSelected
  {
    if |tiles| == 0 then []
    else
      assert tiles == tiles[..|tiles| - 1] + [tiles[|tiles| - 1]];
      Selected(tiles[..|tiles| - 1]) + (if tiles[|tiles| - 1].isSelected then [tiles[|tiles| - 1]] else [])
  }

  /** `filter` keeps each selected tile exactly as often as it occurs and drops every other tile. */
  lemma {:induction false} SelectedCounts(tiles: seq<Letter>)
    ensures forall x :: multiset(Selected(tiles))[x] == (if x.isSelected then multiset(tiles)[x] else 0)
    decreases |tiles|
  {
    if |tiles| > 0 {
      var init, last := tiles[..|tiles| - 1], tiles[|tiles| - 1];
      SelectedCounts(init);
      assert tiles == init + [last];
      assert multiset(tiles) == multiset(init) + multiset{last};
      assert multiset(Selected(tiles)) == multiset(Selected(init)) + multiset(if last.isSelected then [last] else []);
    }
  }

  /** The store's `selectedLetters`: selected tiles sorted by rank. */
  function SelectedInOrder(tiles: seq<Letter>): seq<Letter> {
    SortByRank(Selected(tiles))
  }

  /** The ranks carried by the tiles. */
  ghost function RankSet(tiles: seq<Letter>): set<nat> {
    set j | 0 <= j < |tiles| && tiles[j].selectionOrder.Some? :: tiles[j].selectionOrder.value
  }

  /** The ranks 0, 1, ..., n - 1. */
  ghost function Range(n: nat): set<nat> {
    if n == 0 then {} else Range(n - 1) + {n - 1}
  }

  ghost predicate RankPresentIffSelected(tiles: seq<Letter>) {
    forall j | 0 <= j < |tiles| :: tiles[j].isSelected <==> tiles[j].selectionOrder.Some?
  }

  ghost predicate NoDuplicateRanks(tiles: seq<Letter>) {
    forall i, j | 0 <= i < |tiles| && 0 <= j < |tiles| && i != j && tiles[i].selectionOrder.Some? ::
      tiles[i].selectionOrder != tiles[j].selectionOrder
  }

  /** The rank invariant: with k selected tiles, the ranks are exactly 0..k-1, each on one tile. */
  ghost predicate RanksWellFormed(tiles: seq<Letter>) {
    && RankPresentIffSelected(tiles)
    && NoDuplicateRanks(tiles)
    && RankSet(tiles) == Range(|Selected(tiles)|)
  }

  lemma {:induction false} RangeFacts(n: nat)
    ensures |Range(n)| == n
    ensures forall i :: i in Range(n) <==> 0 <= i < n
  {
    if n > 0 {
      RangeFacts(n - 1);
    }
  }

  lemma RankSetSnoc(tiles: seq<Letter>)
    requires |tiles| > 0
    ensures var last := tiles[|tiles| - 1];
      RankSet(tiles) == RankSet(tiles[..|tiles| - 1]) +
        (if last.selectionOrder.Some? then {last.selectionOrder.value} else {})
  {
    var init := tiles[..|tiles| - 1];
    forall n | n in RankSet(tiles)
      ensures n in RankSet(init) || tiles[|tiles| - 1].selectionOrder == Some(n)
    {
      var j :| 0 <= j < |tiles| && tiles[j].selectionOrder.Some? && tiles[j].selectionOrder.value == n;
      if j < |init| {
        assert init[j] == tiles[j];
      }
    }
    forall n | n in RankSet(init)
      ensures n in RankSet(tiles)
    {
      var j :| 0 <= j < |init| && init[j].selectionOrder.Some? && init[j].selectionOrder.value == n;
      assert tiles[j] == init[j];
    }
  }

  /** With ranks on selected tiles only and no rank twice, there are as many selected tiles as ranks. */
  lemma {:induction false} SelectedCount(tiles: seq<Letter>)
    requires RankPresentIffSelected(tiles) && NoDuplicateRanks(tiles)
    ensures |Selected(tiles)| == |RankSet(tiles)|
    decreases |tiles|
  {
    if |tiles| > 0 {
      var init := tiles[..|tiles| - 1];
      InitKeepsRankFacts(tiles);
      SelectedCount(init);
      RankSetSnoc(tiles);
      if tiles[|tiles| - 1].isSelected {
        LastRankFresh(tiles);
      }
    }
  }

  lemma InitKeepsRankFacts(tiles: seq<Letter>)
    requires |tiles| > 0
    requires RankPresentIffSelected(tiles) && NoDuplicateRanks(tiles)
    ensures RankPresentIffSelected(tiles[..|tiles| - 1]) && NoDuplicateRanks(tiles[..|tiles| - 1])
  {
    var init := tiles[..|tiles| - 1];
    forall i, j | 0 <= i < |init| && 0 <= j < |init| && i != j && init[i].selectionOrder.Some?
      ensures init[i].selectionOrder != init[j].selectionOrder
    {
      assert init[i] == tiles[i] && init[j] == tiles[j];
    }
  }

  lemma LastRankFresh(tiles: seq<Letter>)
    requires |tiles| > 0 && NoDuplicateRanks(tiles)
    requires tiles[|tiles| - 1].selectionOrder.Some?
    ensures tiles[|tiles| - 1].selectionOrder.value !in RankSet(tiles[..|tiles| - 1])
  {
    var init, last := tiles[..|tiles| - 1], tiles[|tiles| - 1];
    forall j | 0 <= j < |init| && init[j].selectionOrder.Some?
      ensures init[j].selectionOrder.value != last.selectionOrder.value
    {
      assert tiles[j] == init[j];
    }
  }

  lemma {:induction false} SelectedKeysDistinct(tiles: seq<Letter>)
    requires RankPresentIffSelected(tiles) && NoDuplicateRanks(tiles)
    ensures DistinctKeys(Selected(tiles))
    decreases |tiles|
  {
    if |tiles| > 0 {
      var init := tiles[..|tiles| - 1];
      var last := tiles[|tiles| - 1];
      SelectedKeysDistinct(init);
      if last.isSelected {
        var sel := Selected(init);
        forall y | y in sel
          ensures Key(y) != Key(last)
        {
          var k :| 0 <= k < |init| && init[k] == y;
          assert tiles[k] == y;
        }
        assert Selected(tiles) == sel + [last];
      }
    }
  }

  /**
   * Under the rank invariant the store's `selectedLetters` is the chain in
   * rank order: its i-th entry is a selected tile of the board with rank i.
   */
  lemma ChainRanks(tiles: seq<Letter>)
    requires RanksWellFormed(tiles)
    ensures |SelectedInOrder(tiles)| == |Selected(tiles)| == |RankSet(tiles)|
    ensures forall i | 0 <= i < |SelectedInOrder(tiles)| ::
      && SelectedInOrder(tiles)[i].selectionOrder == Some(i)
      && SelectedInOrder(tiles)[i].isSelected
      && SelectedInOrder(tiles)[i] in tiles
  {
    var sel := Selected(tiles);
    var chain := SelectedInOrder(tiles);
    SelectedCount(tiles);
    SelectedKeysDistinct(tiles);
    SortByRankStrict(sel);
    SortByRankPermutes(sel);
    forall i | 0 <= i < |chain|
      ensures chain[i] in tiles && chain[i].isSelected && chain[i].selectionOrder.Some?
      ensures Key(chain[i]) < |chain|
    {
      assert chain[i] in multiset(chain);
      assert chain[i] in sel;
      var j :| 0 <= j < |tiles| && tiles[j] == chain[i];
      assert chain[i].selectionOrder.value in RankSet(tiles);
      RangeFacts(|Selected(tiles)|);
    }
    StrictKeysAreIndices(chain);
  }

  /** Where the chain's i-th entry sits on the board. */
  lemma ChainSource(tiles: seq<Letter>, i: nat) returns (m: nat)
    requires RanksWellFormed(tiles)
    requires i < |SelectedInOrder(tiles)|
    ensures m < |tiles| && tiles[m] == SelectedInOrder(tiles)[i]
    ensures tiles[m].isSelected && tiles[m].selectionOrder == Some(i)
  {
    ChainRanks(tiles);
    m :| 0 <= m < |tiles| && tiles[m] == SelectedInOrder(tiles)[i];
  }

  /** The tile carrying rank n is the chain's n-th entry. */
  lemma ChainEntry(tiles: seq<Letter>, j: int)
    requires RanksWellFormed(tiles)
    requires 0 <= j < |tiles| && tiles[j].selectionOrder.Some?
    ensures tiles[j].selectionOrder.value < |SelectedInOrder(tiles)|
    ensures SelectedInOrder(tiles)[tiles[j].selectionOrder.value] == tiles[j]
  {
    ChainRanks(tiles);
    RanksBelowCount(tiles);
    var n := tiles[j].selectionOrder.value;
    var chain := SelectedInOrder(tiles);
    var k :| 0 <= k < |tiles| && tiles[k] == chain[n];
    assert tiles[k].selectionOrder == tiles[j].selectionOrder;
  }

  /** Clearing a tile's selection flag and rank. */
  function Unselect(l: Letter): (u: Letter)
    ensures !u.isSelected && u.selectionOrder == None
    ensures u.id == l.id && u.symbol == l.symbol && u.position == l.position
  {
    l.(isSelected := false, selectionOrder := None)
  }

  /** Rewinding the chain: tiles ranked at or beyond `cut` are unselected. */
  function TruncateTile(cut: nat, l: Letter): Letter {
    if l.selectionOrder.Some? && l.selectionOrder.value >= cut then Unselect(l) else l
  }

  /** Selecting a tile with the given rank. */
  function Extend(l: Letter, rank: nat): Letter {
    l.(isSelected := true, selectionOrder := Some(rank))
  }

  /** Every rank on the board lies below the number of selected tiles. */
  lemma RanksBelowCount(tiles: seq<Letter>)
    requires RanksWellFormed(tiles)
    ensures forall j | 0 <= j < |tiles| && tiles[j].selectionOrder.Some? ::
      tiles[j].selectionOrder.value < |Selected(tiles)|
  {
    RangeFacts(|Selected(tiles)|);
    forall j | 0 <= j < |tiles| && tiles[j].selectionOrder.Some?
      ensures tiles[j].selectionOrder.value < |Selected(tiles)|
    {
      assert tiles[j].selectionOrder.value in RankSet(tiles);
    }
  }

  lemma TruncateRankSet(tiles: seq<Letter>, cut: nat, after: seq<Letter>)
    requires RanksWellFormed(tiles)
    requires cut in RankSet(tiles)
    requires |after| == |tiles|
    requires forall j | 0 <= j < |tiles| :: after[j] == TruncateTile(cut, tiles[j])
    ensures RankSet(after) == Range(cut)
  {
    RanksBelowCount(tiles);
    TruncateLowRanksKept(tiles, cut, after);
    TruncateRanksBelow(tiles, cut, after);
    BelowIsInRange(RankSet(after), cut);
  }

  /** A set of naturals below n lies within 0..n-1. */
  lemma BelowIsInRange(ranks: set<nat>, n: nat)
    requires forall r | r in ranks :: r < n
    ensures ranks <= Range(n)
  {
    RangeFacts(n);
  }

  /** Every rank below the cut survives the truncation. */
  lemma TruncateLowRanksKept(tiles: seq<Letter>, cut: nat, after: seq<Letter>)
    requires RankSet(tiles) == Range(|Selected(tiles)|)
    requires cut in RankSet(tiles)
    requires |after| == |tiles|
    requires forall j | 0 <= j < |tiles| :: after[j] == TruncateTile(cut, tiles[j])
    requires forall j | 0 <= j < |tiles| && tiles[j].selectionOrder.Some? ::
      tiles[j].selectionOrder.value < |Selected(tiles)|
    ensures Range(cut) <= RankSet(after)
  {
    RangeFacts(cut);
    forall n | n in Range(cut)
      ensures n in RankSet(after)
    {
      TruncateKeepsLowRank(tiles, cut, after, n);
    }
  }

  lemma TruncateRanksBelow(tiles: seq<Letter>, cut: nat, after: seq<Letter>)
    requires |after| == |tiles|
    requires forall j | 0 <= j < |tiles| :: after[j] == TruncateTile(cut, tiles[j])
    ensures forall n | n in RankSet(after) :: n < cut
  {
    forall n | n in RankSet(after)
      ensures n < cut
    {
      var j :| 0 <= j < |after| && after[j].selectionOrder.Some? && after[j].selectionOrder.value == n;
      assert after[j] == TruncateTile(cut, tiles[j]);
    }
  }

  lemma TruncateKeepsLowRank(tiles: seq<Letter>, cut: nat, after: seq<Letter>, n: nat)
    requires RankSet(tiles) == Range(|Selected(tiles)|)
    requires cut in RankSet(tiles)
    requires |after| == |tiles|
    requires forall j | 0 <= j < |tiles| :: after[j] == TruncateTile(cut, tiles[j])
    requires forall j | 0 <= j < |tiles| && tiles[j].selectionOrder.Some? ::
      tiles[j].selectionOrder.value < |Selected(tiles)|
    requires n < cut
    ensures n in RankSet(after)
  {
    var k := |Selected(tiles)|;
    var c :| 0 <= c < |tiles| && tiles[c].selectionOrder.Some? && tiles[c].selectionOrder.value == cut;
    RangeFacts(k);
    assert n in Range(k);
    var j :| 0 <= j < |tiles| && tiles[j].selectionOrder.Some? && tiles[j].selectionOrder.value == n;
    assert after[j] == tiles[j];
  }

  lemma TruncateKeepsRanks(tiles: seq<Letter>, cut: nat, after: seq<Letter>)
    requires RanksWellFormed(tiles)
    requires cut in RankSet(tiles)
    requires |after| == |tiles|
    requires forall j | 0 <= j < |tiles| :: after[j] == TruncateTile(cut, tiles[j])
    ensures RanksWellFormed(after)
    ensures |Selected(after)| == cut
  {
    assert RankPresentIffSelected(after);
    assert NoDuplicateRanks(after);
    TruncateRankSet(tiles, cut, after);
    SelectedCount(after);
    RangeFacts(cut);
  }

  /** Truncating at the rank of a chain tile keeps the invariant and keeps exactly the chain's prefix. */
  lemma TruncateChain(tiles: seq<Letter>, cut: nat, after: seq<Letter>)
    requires RanksWellFormed(tiles)
    requires cut in RankSet(tiles)
    requires |after| == |tiles|
    requires forall j | 0 <= j < |tiles| :: after[j] == TruncateTile(cut, tiles[j])
    ensures cut < |SelectedInOrder(tiles)|
    ensures RanksWellFormed(after)
    ensures SelectedInOrder(after) == SelectedInOrder(tiles)[..cut]
  {
    RangeFacts(|Selected(tiles)|);
    TruncateKeepsRanks(tiles, cut, after);
    TruncatePrefix(tiles, cut, after);
  }

  lemma TruncatePrefix(tiles: seq<Letter>, cut: nat, after: seq<Letter>)
    requires RanksWellFormed(tiles) && RanksWellFormed(after)
    requires |after| == |tiles|
    requires forall j | 0 <= j < |tiles| :: after[j] == TruncateTile(cut, tiles[j])
    requires |SelectedInOrder(after)| == cut <= |SelectedInOrder(tiles)|
    ensures SelectedInOrder(after) == SelectedInOrder(tiles)[..cut]
  {
    var chain, chain' := SelectedInOrder(tiles), SelectedInOrder(after);
    forall i | 0 <= i < cut
      ensures chain'[i] == chain[i]
    {
      TruncateChainEntry(tiles, cut, after, i);
    }
    PrefixByEntries(chain', chain);
  }

  /** A sequence agreeing with the front of another is that front. */
  lemma PrefixByEntries(a: seq<Letter>, b: seq<Letter>)
    requires |a| <= |b|
    requires forall i | 0 <= i < |a| :: a[i] == b[i]
    ensures a == b[..|a|]
  {
  }

  lemma TruncateChainEntry(tiles: seq<Letter>, cut: nat, after: seq<Letter>, i: nat)
    requires RanksWellFormed(tiles) && RanksWellFormed(after)
    requires |after| == |tiles|
    requires forall j | 0 <= j < |tiles| :: after[j] == TruncateTile(cut, tiles[j])
    requires i < |SelectedInOrder(after)|
    ensures i < |SelectedInOrder(tiles)|
    ensures SelectedInOrder(after)[i] == SelectedInOrder(tiles)[i]
  {
    var j := ChainSource(after, i);
    assert after[j] == TruncateTile(cut, tiles[j]);
    assert tiles[j] == after[j];
    ChainEntry(tiles, j);
  }

  lemma ExtendRankSet(tiles: seq<Letter>, j: int, k: nat, after: seq<Letter>)
    requires RankPresentIffSelected(tiles)
    requires 0 <= j < |tiles| && !tiles[j].isSelected
    requires after == tiles[j := Extend(tiles[j], k)]
    ensures RankSet(after) == RankSet(tiles) + {k}
  {
    forall n | n in RankSet(after)
      ensures n in RankSet(tiles) + {k}
    {
      var i :| 0 <= i < |after| && after[i].selectionOrder.Some? && after[i].selectionOrder.value == n;
      if i != j {
        assert tiles[i] == after[i];
      }
    }
    forall n | n in RankSet(tiles)
      ensures n in RankSet(after)
    {
      var i :| 0 <= i < |tiles| && tiles[i].selectionOrder.Some? && tiles[i].selectionOrder.value == n;
      assert after[i] == tiles[i];
    }
    assert after[j].selectionOrder == Some(k);
  }

  lemma ExtendKeepsRanks(tiles: seq<Letter>, j: int, after: seq<Letter>)
    requires RanksWellFormed(tiles)
    requires 0 <= j < |tiles| && !tiles[j].isSelected
    requires after == tiles[j := Extend(tiles[j], |Selected(tiles)|)]
    ensures RanksWellFormed(after)
    ensures |Selected(after)| == |Selected(tiles)| + 1
  {
    var k := |Selected(tiles)|;
    RanksBelowCount(tiles);
    assert RankPresentIffSelected(after);
    assert NoDuplicateRanks(after);
    ExtendRankSet(tiles, j, k, after);
    SelectedCount(after);
    RangeFacts(k);
    RangeFacts(k + 1);
  }

  /** Appending an unselected tile with the next rank keeps the invariant and extends the chain by it. */
  lemma ExtendChain(tiles: seq<Letter>, j: int, after: seq<Letter>)
    requires RanksWellFormed(tiles)
    requires 0 <= j < |tiles| && !tiles[j].isSelected
    requires after == tiles[j := Extend(tiles[j], |SelectedInOrder(tiles)|)]
    ensures RanksWellFormed(after)
    ensures SelectedInOrder(after) == SelectedInOrder(tiles) + [after[j]]
  {
    var k := |SelectedInOrder(tiles)|;
    ExtendKeepsRanks(tiles, j, after);
    var chain, chain' := SelectedInOrder(tiles), SelectedInOrder(after);
    forall i | 0 <= i < k + 1
      ensures chain'[i] == (chain + [after[j]])[i]
    {
      ExtendChainEntry(tiles, j, after, i);
    }
  }

  lemma ExtendChainEntry(tiles: seq<Letter>, j: int, after: seq<Letter>, i: nat)
    requires RanksWellFormed(tiles) && RanksWellFormed(after)
    requires 0 <= j < |tiles| && !tiles[j].isSelected
    requires after == tiles[j := Extend(tiles[j], |SelectedInOrder(tiles)|)]
    requires i < |SelectedInOrder(after)| == |SelectedInOrder(tiles)| + 1
    ensures SelectedInOrder(after)[i] == (SelectedInOrder(tiles) + [after[j]])[i]
  {
    var chain, chain' := SelectedInOrder(tiles), SelectedInOrder(after);
    var m := ChainSource(after, i);
    if i < |chain| {
      assert m != j;
      assert tiles[m] == after[m];
      ChainEntry(tiles, m);
    } else {
      assert after[m].selectionOrder == after[j].selectionOrder;
    }
  }

  /** Unselecting every tile leaves an empty, well-formed chain. */
  lemma ClearChain(tiles: seq<Letter>, after: seq<Letter>)
    requires |after| == |tiles|
    requires forall j | 0 <= j < |tiles| :: after[j] == Unselect(tiles[j])
    ensures RanksWellFormed(after)
    ensures SelectedInOrder(after) == []
  {
    var sel := Selected(after);
    assert |sel| == 0 || (sel[0] in after && sel[0].isSelected);
    assert RankSet(after) == {};
  }
}

=== FILE: game_store.dfy ===
/**
 * The game store: the session state and its actions `selectLetter`,
 * `submitWord`, `clearSelection`, `useHint` and `resetGame`, each a pure
 * function from the state before to the state after. An action returns
 * only the fields it sets; the store merges them into the state, so every
 * other field is carried over unchanged.
 */
module GameStore {
  import opened Wrappers
  import opened Types
  import opened Layout
  import opened Chain
  import opened Selection
  import opened WordJudge

  const SampleTheme: Theme := Theme(
    "colors",
    "Colors",
    ["RED", "BLUE", "GREEN", "YELLOW"],
    "RAINBOW",
    "Look for things that brighten our world")

  const StartingHints: int := 3

  /**
   * The state the store is created with: the starting board, the sample
   * theme, no found words, score 0 and three hints. It satisfies the
   * session invariant and nothing is selected.
   */
  function InitialState(): (s: GameState)
    ensures SessionInvariant(s)
    ensures ChainTiles(s.letters) == []
  {
    UnselectedBoardWellRanked(InitialLetters());
    GameState(InitialLetters(), SampleTheme, [], 0, StartingHints, false)
  }

  /**
   * `selectLetter(row, col)`. Coordinates outside the board make the
   * source's updater throw before it changes anything; that is `Failure`.
   */
  function SelectLetter(s: GameState, row: int, col: int): (r: Result<GameState, StoreError>)
    ensures r.Failure? <==> !InGrid(s.letters, row, col)
    ensures r.Success? ==> r.value == s.(letters := r.value.letters)
    ensures r.Success? ==> SameLayout(s.letters, r.value.letters)
  {
    match SelectOnBoard(s.letters, row, col)
    case Success(g) => Success(s.(letters := g))
    case Failure(e) => Failure(e)
  }

  /**
   * `submitWord()`. With nothing selected it changes nothing. Otherwise it
   * clears the selection, win or lose, and leaves every tile's id,
   * character and position, the theme, the hints and the game-over flag
   * alone. The word is accepted exactly when it is a theme word not found
   * before; then it is appended to the found words and the score grows by
   * 50 for the spangram and by 10 per character for any other word.
   * Otherwise the found words and the score stay as they were.
   */
  function SubmitWord(s: GameState): (t: GameState)
    ensures ChainTiles(s.letters) == [] ==> t == s
    ensures ChainTiles(s.letters) != [] ==>
      var word := Spell(ChainTiles(s.letters));
      && SameLayout(s.letters, t.letters)
      && WellRanked(t.letters)
      && ChainTiles(t.letters) == []
      && (forall row, col | InGrid(t.letters, row, col) ::
            !t.letters[row][col].isSelected && t.letters[row][col].selectionOrder == None)
      && t.theme == s.theme && t.hints == s.hints && t.isGameOver == s.isGameOver
      && (Accepts(s.theme, s.foundWords, word) ==>
            && t.foundWords == s.foundWords + [word]
            && t.score == s.score + (if word == s.theme.spangram then 50 else 10 * |word|))
      && (!Accepts(s.theme, s.foundWords, word) ==>
            t.foundWords == s.foundWords && t.score == s.score)
  {
    var chain := ChainTiles(s.letters);
    if |chain| == 0 then
      s
    else
      ClearBoardEmptiesChain(s.letters);
      var word := Spell(chain);
      var letters := ClearBoard(s.letters);
      if Accepts(s.theme, s.foundWords, word) then
        s.(letters := letters,
           foundWords := s.foundWords + [word],
           score := s.score + ScoreIncrease(s.theme, word))
      else
        s.(letters := letters)
  }

  /** `clearSelection()`. */
  function ClearSelection(s: GameState): (t: GameState)
    ensures t == s.(letters := t.letters)
    ensures SameLayout(s.letters, t.letters)
    ensures WellRanked(t.letters) && ChainTiles(t.letters) == []
  {
    ClearBoardEmptiesChain(s.letters);
    s.(letters := ClearBoard(s.letters))
  }

  /** `useHint()`: one hint fewer, with no floor at zero. */
  function UseHint(s: GameState): (t: GameState)
    ensures t == s.(hints := t.hints)
    ensures t.hints == s.hints - 1
  {
    s.(hints := s.hints - 1)
  }

  /** `resetGame()`: the initial state again, except that the current theme is kept. */
  function ResetGame(s: GameState): (t: GameState)
    ensures t == InitialState().(theme := s.theme)
  {
    s.(letters := InitialLetters(), foundWords := [], score := 0, hints := StartingHints, isGameOver := false)
  }

  predicate NoDuplicates(words: seq<string>) {
    forall i, j | 0 <= i < j < |words| :: words[i] != words[j]
  }

  /**
   * What the store keeps true between actions: the rank invariant, tiles
   * that record their own cells, a chain of touching tiles, and found
   * words without repeats.
   */
  ghost predicate SessionInvariant(s: GameState) {
    && WellRanked(s.letters)
    && CoordinatesMatch(s.letters)
    && ChainIsPath(s.letters)
    && NoDuplicates(s.foundWords)
  }

  /** Under the rank invariant the submitted word is the tiles' characters in rank order 0, 1, ..., k - 1. */
  lemma SubmittedWordFollowsRanks(s: GameState)
    requires WellRanked(s.letters)
    ensures var chain := ChainTiles(s.letters);
      forall i | 0 <= i < |chain| :: chain[i].isSelected && chain[i].selectionOrder == Some(i)
  {
    ChainRanks(Flat(s.letters));
  }

  /** A word already found is never scored again: a repeat submission only clears the selection. */
  lemma RepeatSubmissionRejected(s: GameState)
    requires ChainTiles(s.letters) != []
    requires Spell(ChainTiles(s.letters)) in s.foundWords
    ensures SubmitWord(s).foundWords == s.foundWords
    ensures SubmitWord(s).score == s.score
    ensures ChainTiles(SubmitWord(s).letters) == []
  {
  }

  /** Submitting keeps found words free of repeats, and the score never drops. */
  lemma SubmitMonotone(s: GameState)
    requires NoDuplicates(s.foundWords)
    ensures NoDuplicates(SubmitWord(s).foundWords)
    ensures SubmitWord(s).score >= s.score
    ensures |SubmitWord(s).foundWords| >= |s.foundWords|
    ensures SubmitWord(s).foundWords[..|s.foundWords|] == s.foundWords
  {
    var t := SubmitWord(s);
    if ChainTiles(s.letters) != [] {
      var word := Spell(ChainTiles(s.letters));
      if Accepts(s.theme, s.foundWords, word) {
        assert t.foundWords == s.foundWords + [word];
        AppendFreshKeepsNoDuplicates(s.foundWords, word);
      }
    }
  }

  /** Appending a word not yet present keeps a list free of repeats. */
  lemma AppendFreshKeepsNoDuplicates(words: seq<string>, w: string)
    requires NoDuplicates(words) && w !in words
    ensures NoDuplicates(words + [w])
    ensures (words + [w])[..|words|] == words
  {
  }

  /**
   * With one character per tile, an accepted non-spangram word scores ten
   * points per selected tile, and the spangram fifty whatever its length.
   */
  lemma ScorePerTile(s: GameState)
    requires ChainTiles(s.letters) != []
    requires forall i | 0 <= i < |ChainTiles(s.letters)| :: |ChainTiles(s.letters)[i].symbol| == 1
    requires Accepts(s.theme, s.foundWords, Spell(ChainTiles(s.letters)))
    ensures var word := Spell(ChainTiles(s.letters));
      SubmitWord(s).score == s.score + (if word == s.theme.spangram then 50 else 10 * |ChainTiles(s.letters)|)
  {
    SpellSingleLetters(ChainTiles(s.letters));
  }

  /** Whatever came before, `resetGame` restores the session invariant and empties the chain; doing it twice is doing it once. */
  lemma ResetRestoresInitial(s: GameState)
    ensures ResetGame(ResetGame(s)) == ResetGame(s)
    ensures SessionInvariant(ResetGame(s))
    ensures ChainTiles(ResetGame(s).letters) == []
  {
  }

  /** One user interaction with the store. */
  datatype Action = Select(row: int, col: int) | Submit | Clear | Hint | Reset

  /** The state after one action; a throwing `selectLetter` leaves the store as it was. */
  function Step(s: GameState, a: Action): GameState {
    match a
    case Select(row, col) =>
      (match SelectLetter(s, row, col)
       case Success(t) => t
       case Failure(_) => s)
    case Submit => SubmitWord(s)
    case Clear => ClearSelection(s)
    case Hint => UseHint(s)
    case Reset => ResetGame(s)
  }

  function Run(s: GameState, actions: seq<Action>): GameState
    decreases |actions|
  {
    if |actions| == 0 then s else Run(Step(s, actions[0]), actions[1..])
  }

  /** Every action keeps the session invariant. */
  lemma StepKeepsInvariant(s: GameState, a: Action)
    requires SessionInvariant(s)
    ensures SessionInvariant(Step(s, a))
  {
    match a
    case Select(row, col) =>
      if InGrid(s.letters, row, col) {
        var g := SelectOnBoard(s.letters, row, col).value;
        SelectKeepsRanks(s.letters, row, col);
        SelectKeepsPath(s.letters, row, col);
        SameLayoutKeepsCoordinates(s.letters, g);
      }
    case Submit =>
      SubmitMonotone(s);
      if ChainTiles(s.letters) != [] {
        SameLayoutKeepsCoordinates(s.letters, SubmitWord(s).letters);
      }
    case Clear =>
      SameLayoutKeepsCoordinates(s.letters, ClearSelection(s).letters);
    case Hint =>
    case Reset =>
      ResetRestoresInitial(s);
  }

  /** Every reachable state satisfies the session invariant. */
  lemma {:induction false} RunKeepsInvariant(s: GameState, actions: seq<Action>)
    requires SessionInvariant(s)
    ensures SessionInvariant(Run(s, actions))
    decreases |actions|
  {
    if |actions| > 0 {
      StepKeepsInvariant(s, actions[0]);
      RunKeepsInvariant(Step(s, actions[0]), actions[1..]);
    }
  }

  /** Apart from a reset, no action lowers the score or drops a found word. */
  lemma StepMonotone(s: GameState, a: Action)
    requires NoDuplicates(s.foundWords)
    requires a != Reset
    ensures Step(s, a).score >= s.score
    ensures |Step(s, a).foundWords| >= |s.foundWords|
    ensures Step(s, a).foundWords[..|s.foundWords|] == s.foundWords
    ensures NoDuplicates(Step(s, a).foundWords)
  {
    if a == Submit {
      SubmitMonotone(s);
    }
  }

  /** Without a reset, the score never drops and found words are only ever appended to. */
  lemma {:induction false} RunWithoutResetMonotone(s: GameState, actions: seq<Action>)
    requires NoDuplicates(s.foundWords)
    requires Reset !in actions
    ensures Run(s, actions).score >= s.score
    ensures |Run(s, actions).foundWords| >= |s.foundWords|
    ensures Run(s, actions).foundWords[..|s.foundWords|] == s.foundWords
    ensures NoDuplicates(Run(s, actions).foundWords)
    decreases |actions|
  {
    if |actions| > 0 {
      var t := Step(s, actions[0]);
      StepMonotone(s, actions[0]);
      assert Reset !in actions[1..];
      RunWithoutResetMonotone(t, actions[1..]);
      PrefixOfPrefix(s.foundWords, t.foundWords, Run(t, actions[1..]).foundWords);
    }
  }

  lemma PrefixOfPrefix(a: seq<string>, b: seq<string>, c: seq<string>)
    requires |a| <= |b| <= |c|
    requires b[..|a|] == a && c[..|b|] == b
    ensures c[..|a|] == a
  {
    assert c[..|a|] == c[..|b|][..|a|];
  }

  /** Each `useHint` takes exactly one hint, so the count goes below zero after the third. */
  lemma {:induction false} HintsCountDown(s: GameState, n: nat)
    ensures Run(s, seq(n, _ => Hint)).hints == s.hints - n
    ensures Run(s, seq(n, _ => Hint)) == s.(hints := s.hints - n)
    decreases n
  {
    if n > 0 {
      var acts := seq(n, _ => Hint);
      assert acts[0] == Hint;
      assert acts[1..] == seq(n - 1, _ => Hint);
      HintsCountDown(UseHint(s), n - 1);
    }
  }
}

=== FILE: judge.dfy ===
/**
 * Judging a submitted word against the theme: which words are accepted
 * and what each is worth.
 */
module WordJudge {
  import opened Types

  /**
   * The word a chain spells: its tiles' strings joined in order, as
   * `SpellSingle` and `SpellAppend` state. When no tile is empty it has at
   * least one character per tile.
   */
  function Spell(chain: seq<Letter>): (w: string)
    ensures |chain| == 0 ==> w == ""
    ensures (forall i | 0 <= i < |chain| :: chain[i].symbol != "") ==> |w| >= |chain|
  {
    if |chain| == 0 then "" else Spell(chain[..|chain| - 1]) + chain[|chain| - 1].symbol
  }

  /** A chain of one tile spells that tile's string. */
  lemma SpellSingle(x: Letter)
    ensures Spell([x]) == x.symbol
  {
    assert [x][..0] == [];
  }

  /**
   * Spelling distributes over concatenation: with `SpellSingle` this fixes
   * the word as the tiles' strings joined in chain order, for every chain.
   */
  lemma {:induction false} SpellAppend(a: seq<Letter>, b: seq<Letter>)
    ensures Spell(a + b) == Spell(a) + Spell(b)
    decreases |b|
  {
    if |b| == 0 {
      assert a + b == a;
    } else {
      var init, last := b[..|b| - 1], b[|b| - 1];
      assert b == init + [last];
      assert a + b == (a + init) + [last];
      SpellSnoc(a + init, last);
      SpellSnoc(init, last);
      SpellAppend(a, init);
      ConcatAssoc(Spell(a), Spell(init), last.symbol);
    }
  }

  lemma ConcatAssoc(x: string, y: string, z: string)
    ensures (x + y) + z == x + (y + z)
  {
  }

  /** The word starts with the first tile's string. */
  lemma SpellStartsWithFirst(chain: seq<Letter>)
    requires |chain| > 0
    ensures chain[0].symbol <= Spell(chain)
  {
    assert chain == [chain[0]] + chain[1..];
    SpellAppend([chain[0]], chain[1..]);
    SpellSingle(chain[0]);
  }

  /** Appending a tile appends its string. */
  lemma SpellSnoc(c: seq<Letter>, x: Letter)
    ensures Spell(c + [x]) == Spell(c) + x.symbol
  {
    assert (c + [x])[..|c|] == c;
  }

  /** When every tile holds one character, the word has one character per tile, in chain order. */
  lemma {:induction false} SpellSingleLetters(chain: seq<Letter>)
    requires forall i | 0 <= i < |chain| :: |chain[i].symbol| == 1
    ensures |Spell(chain)| == |chain|
    ensures forall i | 0 <= i < |chain| :: Spell(chain)[i] == chain[i].symbol[0]
  {
    if |chain| > 0 {
      SpellSingleLetters(chain[..|chain| - 1]);
    }
  }

  /** A word of the theme: one of its listed words, or its spangram. */
  predicate IsThemeWord(theme: Theme, word: string) {
    word in theme.words || word == theme.spangram
  }

  /**
   * A submission scores when it is a theme word not found before: the
   * spangram or an entry of the theme's list, and no entry of the found
   * words.
   */
  predicate Accepts(theme: Theme, found: seq<string>, word: string): (r: bool)
    ensures r <==>
      && (word == theme.spangram || exists i | 0 <= i < |theme.words| :: theme.words[i] == word)
      && (forall j | 0 <= j < |found| :: found[j] != word)
  {
    IsThemeWord(theme, word) && word !in found
  }

  /**
   * The spangram is worth 50 whatever its length; any other word 10 points
   * per character. Every award is a whole multiple of ten, and only an
   * empty word that is not the spangram earns nothing.
   */
  function ScoreIncrease(theme: Theme, word: string): (r: nat)
    ensures word == theme.spangram ==> r == 50
    ensures r % 10 == 0
    ensures word != theme.spangram ==> r / 10 == |word|
    ensures r == 0 <==> word != theme.spangram && word == ""
  {
    if word == theme.spangram then 50 else |word| * 10
  }
}

=== FILE: layout.dfy ===
/**
 * The board as rows of tiles, its row-major flattening (`letters.flat()`),
 * whole-board maps and single-cell updates, and the fixed starting board.
 */
module Layout {
  import opened Wrappers
  import opened Types
  import TileIds

  predicate InGrid(g: Grid, row: int, col: int) {
    0 <= row < |g| && 0 <= col < |g[row]|
  }

  /** Row-major concatenation of the rows, as `Array.prototype.flat`. */
  function Flat(g: Grid): seq<Letter> {
    if |g| == 0 then [] else g[0] + Flat(g[1..])
  }

  /** Index in `Flat(g)` of the first tile of row `row`. */
  function RowStart(g: Grid, row: nat): nat
    requires row <= |g|
  {
    if row == 0 then 0 else |g[0]| + RowStart(g[1..], row - 1)
  }

  lemma {:induction false} FlatCell(g: Grid, row: int, col: int)
    requires InGrid(g, row, col)
    ensures RowStart(g, row) + col < |Flat(g)|
    ensures Flat(g)[RowStart(g, row) + col] == g[row][col]
  {
    if row > 0 {
      FlatCell(g[1..], row - 1, col);
    }
  }

  /** Every flat index is the image of some cell. */
  lemma {:induction false} FlatIndexCell(g: Grid, j: int) returns (row: int, col: int)
    requires 0 <= j < |Flat(g)|
    ensures InGrid(g, row, col) && RowStart(g, row) + col == j
  {
    if j >= |g[0]| {
      var r, c := FlatIndexCell(g[1..], j - |g[0]|);
      row, col := r + 1, c;
    } else {
      row, col := 0, j;
    }
  }

  function MapSeq(s: seq<Letter>, f: Letter -> Letter): (t: seq<Letter>)
    ensures |t| == |s|
    ensures forall j | 0 <= j < |s| :: t[j] == f(s[j])
  {
    seq(|s|, j requires 0 <= j < |s| => f(s[j]))
  }

  /** `letters.map(row => row.map(f))`. */
  function MapLetters(g: Grid, f: Letter -> Letter): (h: Grid)
    ensures |h| == |g|
    ensures forall row | 0 <= row < |g| :: h[row] == MapSeq(g[row], f)
  {
    seq(|g|, row requires 0 <= row < |g| => MapSeq(g[row], f))
  }

  lemma {:induction false} FlatMapLetters(g: Grid, f: Letter -> Letter)
    ensures Flat(MapLetters(g, f)) == MapSeq(Flat(g), f)
  {
    if |g| > 0 {
      var h := MapLetters(g, f);
      assert h[1..] == MapLetters(g[1..], f);
      FlatMapLetters(g[1..], f);
    }
  }

  /** Replaces the tile at (row, col). */
  function SetCell(g: Grid, row: int, col: int, v: Letter): (h: Grid)
    requires InGrid(g, row, col)
  {
    g[row := g[row][col := v]]
  }

  lemma {:induction false} FlatSetCell(g: Grid, row: int, col: int, v: Letter)
    requires InGrid(g, row, col)
    ensures RowStart(g, row) + col < |Flat(g)|
    ensures Flat(SetCell(g, row, col, v)) == Flat(g)[RowStart(g, row) + col := v]
  {
    FlatCell(g, row, col);
    var h := SetCell(g, row, col, v);
    if row == 0 {
      assert h[1..] == g[1..];
    } else {
      assert h[1..] == SetCell(g[1..], row - 1, col, v);
      FlatSetCell(g[1..], row - 1, col, v);
    }
  }

  /** Both boards have the same shape and the same ids, symbols and positions cell by cell. */
  ghost predicate SameLayout(g: Grid, h: Grid) {
    && |g| == |h|
    && (forall row | 0 <= row < |g| :: |g[row]| == |h[row]|)
    && (forall row, col | InGrid(g, row, col) ::
          && h[row][col].id == g[row][col].id
          && h[row][col].symbol == g[row][col].symbol
          && h[row][col].position == g[row][col].position)
  }

  /** Every tile records its own coordinates and the id derived from them. */
  ghost predicate CoordinatesMatch(g: Grid) {
    forall row, col | InGrid(g, row, col) ::
      && g[row][col].position == Pos(row, col)
      && g[row][col].id == TileIds.IdOf(row, col)
  }

  lemma SameLayoutKeepsCoordinates(g: Grid, h: Grid)
    requires SameLayout(g, h) && CoordinatesMatch(g)
    ensures CoordinatesMatch(h)
  {
  }

  /** A fresh, unselected tile for the character `symbol` at (row, col). */
  function FreshLetter(symbol: string, row: nat, col: nat): Letter {
    Letter(TileIds.IdOf(row, col), symbol, false, None, Pos(row, col))
  }

  /** Turns a grid of characters into a board of fresh tiles. */
  function BuildLetters(chars: seq<seq<string>>): (g: Grid)
    ensures |g| == |chars|
    ensures forall row | 0 <= row < |g| :: |g[row]| == |chars[row]|
    ensures forall row, col | InGrid(g, row, col) :: g[row][col] == FreshLetter(chars[row][col], row, col)
  {
    seq(|chars|, row requires 0 <= row < |chars| =>
      seq(|chars[row]|, col requires 0 <= col < |chars[row]| => FreshLetter(chars[row][col], row, col)))
  }

  const InitialChars: seq<seq<string>> := [
    ["R", "A", "I", "N"],
    ["B", "L", "U", "E"],
    ["O", "W", "G", "D"],
    ["Y", "E", "R", "N"]
  ]

  /**
   * The store's `createInitialLetters`: the 4-by-4 RAIN/BLUE/OWGD/YERN
   * board with nothing selected and every tile at its own cell.
   */
  function InitialLetters(): (g: Grid)
    ensures |g| == 4 && forall row | 0 <= row < 4 :: |g[row]| == 4
    ensures CoordinatesMatch(g)
    ensures forall row, col | InGrid(g, row, col) ::
      && g[row][col].symbol == InitialChars[row][col]
      && !g[row][col].isSelected
      && g[row][col].selectionOrder == None
  {
    BuildLettersFresh(InitialChars);
    BuildLetters(InitialChars)
  }

  /**
   * A freshly built board is rectangular as its characters are, carries the
   * characters unchanged, has nothing selected, and every tile's position
   * and id name its own cell; no two cells share an id.
   */
  lemma BuildLettersFresh(chars: seq<seq<string>>)
    ensures var g := BuildLetters(chars);
      && CoordinatesMatch(g)
      && (forall row, col | InGrid(g, row, col) ::
            && g[row][col].symbol == chars[row][col]
            && !g[row][col].isSelected
            && g[row][col].selectionOrder == None)
      && (forall r1, c1, r2, c2 | InGrid(g, r1, c1) && InGrid(g, r2, c2) && (r1, c1) != (r2, c2) ::
            g[r1][c1].id != g[r2][c2].id)
  {
    var g := BuildLetters(chars);
    forall r1, c1, r2, c2 | InGrid(g, r1, c1) && InGrid(g, r2, c2) && (r1, c1) != (r2, c2)
      ensures g[r1][c1].id != g[r2][c2].id
    {
      TileIds.IdOfInjective(r1, c1, r2, c2);
    }
  }
}

=== FILE: rank_sort.dfy ===
/**
 * `sort((a, b) => (a.selectionOrder ?? 0) - (b.selectionOrder ?? 0))`:
 * a stable sort of tiles by rank, an absent rank counting as 0. JavaScript's
 * sort is stable, so the result is the unique stable ordering; it is
 * written here as insertion sort.
 */
module RankSort {
  import opened Types

  /** The comparator's key for a tile. */
  function Key(l: Letter): nat {
    l.selectionOrder.GetOr(0)
  }

  ghost predicate SortedByKey(s: seq<Letter>) {
    forall i, j | 0 <= i < j < |s| :: Key(s[i]) <= Key(s[j])
  }

  ghost predicate StrictlyIncreasingKeys(s: seq<Letter>) {
    forall i, j | 0 <= i < j < |s| :: Key(s[i]) < Key(s[j])
  }

  /** No two positions of `s` carry the same key. */
  ghost predicate DistinctKeys(s: seq<Letter>) {
    forall i, j | 0 <= i < |s| && 0 <= j < |s| && i != j :: Key(s[i]) != Key(s[j])
  }

  /** Places `x` after every element of `s` whose key is at most its own. */
  function InsertStable(s: seq<Letter>, x: Letter): (r: seq<Letter>)
    ensures |r| == |s| + 1
  {
    if |s| == 0 || Key(s[|s| - 1]) <= Key(x) then
      s + [x]
    else
      InsertStable(s[..|s| - 1], x) + [s[|s| - 1]]
  }

  /** Insertion adds exactly `x`. */
  lemma {:induction false} InsertStablePermutes(s: seq<Letter>, x: Letter)
    ensures multiset(InsertStable(s, x)) == multiset(s) + multiset{x}
    decreases |s|
  {
    if !(|s| == 0 || Key(s[|s| - 1]) <= Key(x)) {
      InsertStablePermutes(s[..|s| - 1], x);
      assert s == s[..|s| - 1] + [s[|s| - 1]];
    }
  }

  /** Insertion into a sorted sequence keeps it sorted. */
  lemma {:induction false} InsertStableSorted(s: seq<Letter>, x: Letter)
    requires SortedByKey(s)
    ensures SortedByKey(InsertStable(s, x))
    decreases |s|
  {
    if !(|s| == 0 || Key(s[|s| - 1]) <= Key(x)) {
      var init := s[..|s| - 1];
      InsertStableSorted(init, x);
      InsertStablePermutes(init, x);
      assert s == init + [s[|s| - 1]];
      AppendLargestSorted(InsertStable(init, x), init, x, s[|s| - 1]);
    }
  }

  /** Appending a tile whose key bounds every element keeps a sorted sequence sorted. */
  lemma AppendLargestSorted(front: seq<Letter>, init: seq<Letter>, x: Letter, last: Letter)
    requires SortedByKey(front) && SortedByKey(init + [last])
    requires multiset(front) == multiset(init) + multiset{x}
    requires Key(x) < Key(last)
    ensures SortedByKey(front + [last])
  {
    assert forall y | y in init :: Key(y) <= Key(last) by {
      forall y | y in init
        ensures Key(y) <= Key(last)
      {
        var k :| 0 <= k < |init| && init[k] == y;
        assert (init + [last])[k] == y && (init + [last])[|init|] == last;
      }
    }
    forall i | 0 <= i < |front|
      ensures Key(front[i]) <= Key(last)
    {
      assert front[i] in multiset(front);
    }
  }

  function SortByRank(s: seq<Letter>): (r: seq<Letter>)
    ensures |r| == |s|
  {
    if |s| == 0 then []
    else
      InsertStable(SortByRank(s[..|s| - 1]), s[|s| - 1])
  }

  /** The sort only reorders: it keeps every tile, as often as it occurs. */
  lemma {:induction false} SortByRankPermutes(s: seq<Letter>)
    ensures multiset(SortByRank(s)) == multiset(s)
    decreases |s|
  {
    if |s| > 0 {
      var init, last := s[..|s| - 1], s[|s| - 1];
      var sortedInit := SortByRank(init);
      assert SortByRank(s) == InsertStable(sortedInit, last);
      assert s == init + [last];
      assert multiset(s) == multiset(init) + multiset{last};
      SortByRankPermutes(init);
      InsertStablePermutes(sortedInit, last);
    }
  }

  /** The sort's output is ordered by key. */
  lemma {:induction false} SortByRankSorted(s: seq<Letter>)
    ensures SortedByKey(SortByRank(s))
    decreases |s|
  {
    if |s| > 0 {
      SortByRankSorted(s[..|s| - 1]);
      InsertStableSorted(SortByRank(s[..|s| - 1]), s[|s| - 1]);
    }
  }

  lemma {:induction false} InsertStableKeepsDistinct(s: seq<Letter>, x: Letter)
    requires DistinctKeys(s)
    requires forall y | y in s :: Key(y) != Key(x)
    ensures DistinctKeys(InsertStable(s, x))
    decreases |s|
  {
    if |s| == 0 || Key(s[|s| - 1]) <= Key(x) {
    } else {
      var init := s[..|s| - 1];
      InsertStableKeepsDistinct(init, x);
      InsertStablePermutes(init, x);
      var front := InsertStable(init, x);
      forall i | 0 <= i < |front|
        ensures Key(front[i]) != Key(s[|s| - 1])
      {
        assert front[i] in multiset(front);
        if front[i] != x {
          assert front[i] in init;
          var k :| 0 <= k < |init| && init[k] == front[i];
          assert s[k] == front[i];
        }
      }
    }
  }

  /** Sorting keeps keys pairwise distinct. */
  lemma {:induction false} SortByRankDistinct(s: seq<Letter>)
    requires DistinctKeys(s)
    ensures DistinctKeys(SortByRank(s))
    decreases |s|
  {
    if |s| > 0 {
      var init := s[..|s| - 1];
      var x := s[|s| - 1];
      SortByRankDistinct(init);
      SortByRankPermutes(init);
      var sorted := SortByRank(init);
      forall y | y in sorted
        ensures Key(y) != Key(x)
      {
        assert y in multiset(sorted);
        var k :| 0 <= k < |init| && init[k] == y;
        assert s[k] == y;
      }
      InsertStableKeepsDistinct(sorted, x);
    }
  }

  /** Sorting a sequence whose keys are pairwise distinct yields strictly increasing keys. */
  lemma SortByRankStrict(s: seq<Letter>)
    requires DistinctKeys(s)
    ensures StrictlyIncreasingKeys(SortByRank(s))
  {
    SortByRankDistinct(s);
    SortByRankSorted(s);
  }

  lemma {:induction false} StrictKeysGrow(s: seq<Letter>, i: nat, j: nat)
    requires StrictlyIncreasingKeys(s)
    requires i <= j < |s|
    ensures Key(s[j]) >= Key(s[i]) + (j - i)
    decreases j - i
  {
    if i < j {
      StrictKeysGrow(s, i, j - 1);
    }
  }

  /**
   * A strictly increasing run of `|s|` keys that all lie below `|s|` is
   * exactly 0, 1, ..., |s| - 1.
   */
  lemma StrictKeysAreIndices(s: seq<Letter>)
    requires StrictlyIncreasingKeys(s)
    requires forall i | 0 <= i < |s| :: Key(s[i]) < |s|
    ensures forall i | 0 <= i < |s| :: Key(s[i]) == i
  {
    forall i | 0 <= i < |s|
      ensures Key(s[i]) == i
    {
      StrictKeysGrow(s, 0, i);
      StrictKeysGrow(s, i, |s| - 1);
    }
  }
}

=== FILE: scenarios.dfy ===
/**
 * Two play-throughs on the starting board with the sample theme: spelling
 * BLUE along the second row, and an attempt to extend a chain with a tile
 * two rows away.
 */
module Scenarios {
  import opened Types
  import opened Layout
  import opened Adjacency
  import opened Selection
  import opened WordJudge
  import opened GameStore

  /** A tap on a cell of a board satisfying the session invariant moves the chain of positions by `ChainStep`. */
  lemma TapStep(s: GameState, row: int, col: int)
    requires SessionInvariant(s) && InGrid(s.letters, row, col)
    ensures SessionInvariant(Step(s, Select(row, col)))
    ensures SameLayout(s.letters, Step(s, Select(row, col)).letters)
    ensures ChainPositions(Step(s, Select(row, col)).letters) == ChainStep(ChainPositions(s.letters), Pos(row, col))
  {
    StepKeepsInvariant(s, Select(row, col));
    SelectRefinesChainStep(s.letters, row, col);
  }

  /** The conditions the starting board meets, stated without unfolding it. */
  ghost predicate FreshStart(s: GameState) {
    && SessionInvariant(s)
    && ChainTiles(s.letters) == []
    && |s.letters| == 4
    && (forall row | 0 <= row < 4 :: |s.letters[row]| == 4)
    && (forall row, col | InGrid(s.letters, row, col) ::
          !s.letters[row][col].isSelected && s.letters[row][col].symbol == InitialChars[row][col])
    && s.theme == SampleTheme
    && s.foundWords == []
    && s.score == 0
  }

  lemma InitialIsFreshStart()
    ensures FreshStart(InitialState())
  {
    var s0 := InitialState();
    assert s0.letters == InitialLetters();
  }

  /** Tapping B, L, U, E along the second row and submitting scores 40 and records BLUE. */
  lemma SpellBlue()
    ensures var s := Run(InitialState(), [Select(1, 0), Select(1, 1), Select(1, 2), Select(1, 3), Submit]);
      && s.foundWords == ["BLUE"]
      && s.score == 40
      && ChainTiles(s.letters) == []
  {
    InitialIsFreshStart();
    SpellBlueFrom(InitialState());
  }

  lemma SpellBlueFrom(s0: GameState)
    requires FreshStart(s0)
    ensures var s := Run(s0, [Select(1, 0), Select(1, 1), Select(1, 2), Select(1, 3), Submit]);
      && s.foundWords == ["BLUE"]
      && s.score == 40
      && ChainTiles(s.letters) == []
  {
    var s4 := Step(Step(Step(Step(s0, Select(1, 0)), Select(1, 1)), Select(1, 2)), Select(1, 3));
    BlueTaps(s0);
    FreshSecondRow(s0, s4.letters);
    ChainSymbols(s4.letters);
    BlueSubmitted(s4);
    RunFive(s0, Select(1, 0), Select(1, 1), Select(1, 2), Select(1, 3), Submit);
  }

  /** Submitting a chain that spells BLUE on a fresh session records it and scores 40. */
  lemma BlueSubmitted(s: GameState)
    requires s.theme == SampleTheme && s.foundWords == [] && s.score == 0
    requires ChainTiles(s.letters) != [] && Spell(ChainTiles(s.letters)) == "BLUE"
    ensures var t := Step(s, Submit);
      && t.foundWords == ["BLUE"]
      && t.score == 40
      && ChainTiles(t.letters) == []
  {
    assert Accepts(s.theme, s.foundWords, "BLUE");
  }

  lemma RunFive(s: GameState, a: Action, b: Action, c: Action, d: Action, e: Action)
    ensures Run(s, [a, b, c, d, e]) == Step(Step(Step(Step(Step(s, a), b), c), d), e)
  {
    var s1 := Step(s, a);
    var s2 := Step(s1, b);
    var s3 := Step(s2, c);
    var s4 := Step(s3, d);
    assert [a, b, c, d, e][1..] == [b, c, d, e];
    assert [b, c, d, e][1..] == [c, d, e];
    assert [c, d, e][1..] == [d, e];
    assert [d, e][1..] == [e];
    assert [e][1..] == [];
    assert Run(s4, [e]) == Run(Step(s4, e), []);
    assert Run(s3, [d, e]) == Run(s4, [e]);
    assert Run(s2, [c, d, e]) == Run(s3, [d, e]);
    assert Run(s1, [b, c, d, e]) == Run(s2, [c, d, e]);
    assert Run(s, [a, b, c, d, e]) == Run(s1, [b, c, d, e]);
  }

  /** A tap on a new cell next to the chain's last one appends that cell and touches nothing but the board. */
  lemma TapAppends(s: GameState, row: int, col: int)
    requires SessionInvariant(s) && InGrid(s.letters, row, col)
    requires Pos(row, col) !in ChainPositions(s.letters)
    requires var p := ChainPositions(s.letters);
      |p| == 0 || IsAdjacent(p[|p| - 1], Pos(row, col))
    ensures var t := Step(s, Select(row, col));
      && SessionInvariant(t)
      && SameLayout(s.letters, t.letters)
      && ChainPositions(t.letters) == ChainPositions(s.letters) + [Pos(row, col)]
      && t == s.(letters := t.letters)
  {
    TapStep(s, row, col);
  }

  lemma SameLayoutTransitive(a: Grid, b: Grid, c: Grid)
    requires SameLayout(a, b) && SameLayout(b, c)
    ensures SameLayout(a, c)
  {
  }

  /** The shape of the starting board. */
  ghost predicate FourByFour(g: Grid) {
    |g| == 4 && forall row | 0 <= row < 4 :: |g[row]| == 4
  }

  /** A tap on a fresh cell next to the chain's last one, stated about the named successor state. */
  lemma TapOnto(s: GameState, t: GameState, c: Pos, p: seq<Pos>)
    requires SessionInvariant(s) && FourByFour(s.letters)
    requires 0 <= c.row < 4 && 0 <= c.col < 4
    requires ChainPositions(s.letters) == p && c !in p
    requires |p| == 0 || IsAdjacent(p[|p| - 1], c)
    requires t == Step(s, Select(c.row, c.col))
    ensures SessionInvariant(t) && FourByFour(t.letters)
    ensures SameLayout(s.letters, t.letters)
    ensures ChainPositions(t.letters) == p + [c]
    ensures t == s.(letters := t.letters)
  {
    TapAppends(s, c.row, c.col);
  }

  lemma BlueThird(s2: GameState, s3: GameState)
    requires SessionInvariant(s2) && FourByFour(s2.letters)
    requires ChainPositions(s2.letters) == [Pos(1, 0), Pos(1, 1)]
    requires s3 == Step(s2, Select(1, 2))
    ensures SessionInvariant(s3) && FourByFour(s3.letters)
    ensures SameLayout(s2.letters, s3.letters)
    ensures ChainPositions(s3.letters) == [Pos(1, 0), Pos(1, 1), Pos(1, 2)]
    ensures s3 == s2.(letters := s3.letters)
  {
    SecondRowSteps();
    TapOnto(s2, s3, Pos(1, 2), [Pos(1, 0), Pos(1, 1)]);
  }

  lemma BlueFourth(s3: GameState, s4: GameState)
    requires SessionInvariant(s3) && FourByFour(s3.letters)
    requires ChainPositions(s3.letters) == [Pos(1, 0), Pos(1, 1), Pos(1, 2)]
    requires s4 == Step(s3, Select(1, 3))
    ensures SessionInvariant(s4)
    ensures SameLayout(s3.letters, s4.letters)
    ensures ChainPositions(s4.letters) == [Pos(1, 0), Pos(1, 1), Pos(1, 2), Pos(1, 3)]
    ensures s4 == s3.(letters := s4.letters)
  {
    SecondRowSteps();
    TapOnto(s3, s4, Pos(1, 3), [Pos(1, 0), Pos(1, 1), Pos(1, 2)]);
  }

  /** The positions of the second row, as the chain grows tap by tap. */
  lemma SecondRowSteps()
    ensures [] + [Pos(1, 0)] == [Pos(1, 0)]
    ensures [Pos(1, 0)] + [Pos(1, 1)] == [Pos(1, 0), Pos(1, 1)]
    ensures [Pos(1, 0), Pos(1, 1)] + [Pos(1, 2)] == [Pos(1, 0), Pos(1, 1), Pos(1, 2)]
    ensures [Pos(1, 0), Pos(1, 1), Pos(1, 2)] + [Pos(1, 3)] == [Pos(1, 0), Pos(1, 1), Pos(1, 2), Pos(1, 3)]
    ensures IsAdjacent(Pos(1, 0), Pos(1, 1)) && IsAdjacent(Pos(1, 1), Pos(1, 2)) && IsAdjacent(Pos(1, 2), Pos(1, 3))
  {
  }

  lemma BlueTaps(s0: GameState)
    requires FreshStart(s0)
    ensures var s4 := Step(Step(Step(Step(s0, Select(1, 0)), Select(1, 1)), Select(1, 2)), Select(1, 3));
      && SessionInvariant(s4)
      && SameLayout(s0.letters, s4.letters)
      && ChainPositions(s4.letters) == [Pos(1, 0), Pos(1, 1), Pos(1, 2), Pos(1, 3)]
      && s4 == s0.(letters := s4.letters)
  {
    var s2 := Step(Step(s0, Select(1, 0)), Select(1, 1));
    var s4 := Step(Step(s2, Select(1, 2)), Select(1, 3));
    BlueFirstTwo(s0, s2);
    BlueLastTwo(s2, s4);
    SameLayoutTransitive(s0.letters, s2.letters, s4.letters);
  }

  /** Tapping B then L on the fresh board. */
  lemma BlueFirstTwo(s0: GameState, s2: GameState)
    requires FreshStart(s0)
    requires s2 == Step(Step(s0, Select(1, 0)), Select(1, 1))
    ensures SessionInvariant(s2) && FourByFour(s2.letters)
    ensures SameLayout(s0.letters, s2.letters)
    ensures ChainPositions(s2.letters) == [Pos(1, 0), Pos(1, 1)]
    ensures s2 == s0.(letters := s2.letters)
  {
    var s1 := Step(s0, Select(1, 0));
    assert FourByFour(s0.letters);
    SecondRowSteps();
    TapOnto(s0, s1, Pos(1, 0), []);
    TapOnto(s1, s2, Pos(1, 1), [Pos(1, 0)]);
    SameLayoutTransitive(s0.letters, s1.letters, s2.letters);
  }

  /** Tapping U then E once B and L are chained. */
  lemma BlueLastTwo(s2: GameState, s4: GameState)
    requires SessionInvariant(s2) && FourByFour(s2.letters)
    requires ChainPositions(s2.letters) == [Pos(1, 0), Pos(1, 1)]
    requires s4 == Step(Step(s2, Select(1, 2)), Select(1, 3))
    ensures SessionInvariant(s4)
    ensures SameLayout(s2.letters, s4.letters)
    ensures ChainPositions(s4.letters) == [Pos(1, 0), Pos(1, 1), Pos(1, 2), Pos(1, 3)]
    ensures s4 == s2.(letters := s4.letters)
  {
    var s3 := Step(s2, Select(1, 2));
    BlueThird(s2, s3);
    BlueFourth(s3, s4);
    SameLayoutTransitive(s2.letters, s3.letters, s4.letters);
  }

  /** The second row of the board holds B, L, U, E. */
  ghost predicate SecondRowBlue(g: Grid) {
    && |g| == 4 && |g[1]| == 4
    && g[1][0].symbol == "B" && g[1][1].symbol == "L" && g[1][2].symbol == "U" && g[1][3].symbol == "E"
  }

  lemma FreshSecondRow(s0: GameState, g: Grid)
    requires FreshStart(s0) && SameLayout(s0.letters, g)
    ensures SecondRowBlue(g)
  {
    assert InitialChars[1] == ["B", "L", "U", "E"];
    assert InGrid(s0.letters, 1, 0) && InGrid(s0.letters, 1, 1) && InGrid(s0.letters, 1, 2) && InGrid(s0.letters, 1, 3);
  }

  /** A chain through the second row of a board whose second row holds B, L, U, E spells BLUE. */
  lemma ChainSymbols(g: Grid)
    requires WellRanked(g) && CoordinatesMatch(g)
    requires SecondRowBlue(g)
    requires ChainPositions(g) == [Pos(1, 0), Pos(1, 1), Pos(1, 2), Pos(1, 3)]
    ensures Spell(ChainTiles(g)) == "BLUE"
  {
    var chain := ChainTiles(g);
    var p := ChainPositions(g);
    assert p[0] == Pos(1, 0) && p[1] == Pos(1, 1) && p[2] == Pos(1, 2) && p[3] == Pos(1, 3);
    SecondRowTile(g, 0);
    SecondRowTile(g, 1);
    SecondRowTile(g, 2);
    SecondRowTile(g, 3);
    SpellFour(chain);
  }

  /** The chain entry visiting (1, c) is the tile at (1, c). */
  lemma SecondRowTile(g: Grid, c: nat)
    requires WellRanked(g) && CoordinatesMatch(g)
    requires |g| == 4 && |g[1]| == 4 && c < 4
    requires c < |ChainPositions(g)| && ChainPositions(g)[c] == Pos(1, c)
    ensures ChainTiles(g)[c] == g[1][c]
  {
    ChainEntryCell(g, c);
  }

  lemma SpellFour(chain: seq<Letter>)
    requires |chain| == 4
    requires chain[0].symbol == "B" && chain[1].symbol == "L" && chain[2].symbol == "U" && chain[3].symbol == "E"
    ensures Spell(chain) == "BLUE"
  {
    SpellSingleLetters(chain);
    var w := Spell(chain);
    assert w[0] == 'B' && w[1] == 'L' && w[2] == 'U' && w[3] == 'E';
  }

  /** After tapping R at (0, 0), tapping G at (2, 2) is ignored: the chain stays just R. */
  lemma NonAdjacentTapIgnored()
    ensures var s1 := Step(InitialState(), Select(0, 0));
      && Step(s1, Select(2, 2)) == s1
      && ChainPositions(s1.letters) == [Pos(0, 0)]
  {
    InitialIsFreshStart();
    NonAdjacentTapIgnoredFrom(InitialState());
  }

  lemma NonAdjacentTapIgnoredFrom(s0: GameState)
    requires FreshStart(s0)
    ensures var s1 := Step(s0, Select(0, 0));
      && Step(s1, Select(2, 2)) == s1
      && ChainPositions(s1.letters) == [Pos(0, 0)]
  {
    var s1 := Step(s0, Select(0, 0));
    assert FourByFour(s0.letters);
    assert [] + [Pos(0, 0)] == [Pos(0, 0)];
    TapOnto(s0, s1, Pos(0, 0), []);
    FarTapIgnored(s1);
  }

  /** With the chain at (0, 0) alone, a tap at (2, 2) touches nothing. */
  lemma FarTapIgnored(s: GameState)
    requires SessionInvariant(s) && FourByFour(s.letters)
    requires ChainPositions(s.letters) == [Pos(0, 0)]
    ensures Step(s, Select(2, 2)) == s
  {
    var g := s.letters;
    SelectedCellInChain(g, 2, 2);
    assert !g[2][2].isSelected;
    assert ChainTiles(g)[0].position == Pos(0, 0);
    assert !IsAdjacent(Pos(0, 0), Pos(2, 2));
    SelectUnselectedChangesIff(g, 2, 2);
  }
}

=== FILE: selection.dfy ===
/**
 * The store's `selectLetter` and the selection-clearing map, on the board,
 * with the chain view they refine: truncation keeps a prefix of the chain,
 * a legal extension appends the tapped tile, any other tap changes nothing.
 */
module Selection {
  import opened Wrappers
  import opened Types
  import opened Layout
  import opened Adjacency
  import opened Chain

  /** The rank invariant, over the board read row by row. */
  ghost predicate WellRanked(g: Grid) {
    RanksWellFormed(Flat(g))
  }

  /** The current chain as the store reads it: the selected tiles in rank order. */
  function ChainTiles(g: Grid): seq<Letter> {
    SelectedInOrder(Flat(g))
  }

  /** The positions the tiles of a chain record, in chain order. */
  function Positions(chain: seq<Letter>): (p: seq<Pos>)
    ensures |p| == |chain|
    ensures forall i | 0 <= i < |chain| :: p[i] == chain[i].position
  {
    seq(|chain|, i requires 0 <= i < |chain| => chain[i].position)
  }

  /** The chain as the sequence of positions it visits. */
  function ChainPositions(g: Grid): (p: seq<Pos>)
    ensures |p| == |ChainTiles(g)|
  {
    Positions(ChainTiles(g))
  }

  lemma PositionsSnoc(chain: seq<Letter>, tile: Letter)
    ensures Positions(chain + [tile]) == Positions(chain) + [tile.position]
  {
  }

  lemma PositionsPrefix(chain: seq<Letter>, n: nat)
    requires n <= |chain|
    ensures Positions(chain[..n]) == Positions(chain)[..n]
  {
  }

  /** Consecutive tiles of the chain touch. */
  ghost predicate ChainIsPath(g: Grid) {
    var p := ChainPositions(g);
    forall i | 0 < i < |p| :: IsAdjacent(p[i - 1], p[i])
  }

  /**
   * The rank from which a tap on a selected tile rewinds the chain. The
   * store compares against `selectionOrder!`; a missing rank compares as 0
   * in JavaScript, which only a board breaking the rank invariant can show.
   */
  function Cutoff(l: Letter): nat {
    l.selectionOrder.GetOr(0)
  }

  /** `selectLetter(row, col)` on the board alone. */
  function SelectOnBoard(g: Grid, row: int, col: int): (r: Result<Grid, StoreError>)
    ensures r.Failure? <==> !InGrid(g, row, col)
    ensures r.Success? ==> SameLayout(g, r.value)
  {
    if !InGrid(g, row, col) then
      Failure(CellOutOfGrid(row, col))
    else
      var letter := g[row][col];
      if letter.isSelected then
        Success(TruncateBoard(g, Cutoff(letter)))
      else
        var chain := ChainTiles(g);
        if |chain| == 0 || IsAdjacent(chain[|chain| - 1].position, Pos(row, col)) then
          Success(ExtendBoard(g, row, col))
        else
          Success(g)
  }

  /** Rewinding the chain on the whole board to the ranks below `cut`. */
  function TruncateBoard(g: Grid, cut: nat): Grid {
    MapLetters(g, l => TruncateTile(cut, l))
  }

  /** Selecting the tile at (row, col) as the chain's next entry. */
  function ExtendBoard(g: Grid, row: int, col: int): Grid
    requires InGrid(g, row, col)
  {
    SetCell(g, row, col, Extend(g[row][col], |ChainTiles(g)|))
  }

  /** Every tile unselected and unranked, as `clearSelection` and `submitWord` do. */
  function ClearBoard(g: Grid): (h: Grid)
    ensures SameLayout(g, h)
    ensures forall row, col | InGrid(h, row, col) :: !h[row][col].isSelected && h[row][col].selectionOrder == None
  {
    MapLetters(g, Unselect)
  }

  /** Clearing leaves a well-formed, empty chain whatever the board held. */
  lemma ClearBoardEmptiesChain(g: Grid)
    ensures WellRanked(ClearBoard(g))
    ensures ChainTiles(ClearBoard(g)) == []
  {
    FlatMapLetters(g, Unselect);
    ClearChain(Flat(g), Flat(ClearBoard(g)));
  }

  /** On a well-ranked board a selected tile carries a rank, and it is the chain entry with that rank. */
  lemma SelectedTileInChain(g: Grid, row: int, col: int)
    requires WellRanked(g) && InGrid(g, row, col) && g[row][col].isSelected
    ensures g[row][col].selectionOrder.Some?
    ensures Cutoff(g[row][col]) < |ChainTiles(g)|
    ensures ChainTiles(g)[Cutoff(g[row][col])] == g[row][col]
  {
    FlatCell(g, row, col);
    ChainEntry(Flat(g), RowStart(g, row) + col);
  }

  /**
   * Tapping a tile already in the chain rewinds the chain to just before
   * it: the chain becomes its prefix below the tile's rank, a tile stays
   * selected exactly when its rank is below that rank, and kept tiles are
   * untouched.
   */
  lemma SelectSelectedTruncates(g: Grid, row: int, col: int)
    requires WellRanked(g) && InGrid(g, row, col) && g[row][col].isSelected
    ensures SelectOnBoard(g, row, col).Success?
    ensures var h := SelectOnBoard(g, row, col).value;
      var cut := Cutoff(g[row][col]);
      && cut < |ChainTiles(g)|
      && WellRanked(h)
      && ChainTiles(h) == ChainTiles(g)[..cut]
      && (forall r, c | InGrid(g, r, c) ::
            && (h[r][c].isSelected <==> g[r][c].isSelected && Cutoff(g[r][c]) < cut)
            && (h[r][c].isSelected ==> h[r][c] == g[r][c]))
  {
    var cut := Cutoff(g[row][col]);
    SelectedTileInChain(g, row, col);
    FlatCell(g, row, col);
    assert cut in RankSet(Flat(g)) by {
      assert Flat(g)[RowStart(g, row) + col].selectionOrder == Some(cut);
    }
    TruncateBoardChain(g, cut);
    TruncateBoardCells(g, cut);
  }

  lemma TruncateBoardChain(g: Grid, cut: nat)
    requires WellRanked(g) && cut in RankSet(Flat(g))
    ensures cut < |ChainTiles(g)|
    ensures WellRanked(TruncateBoard(g, cut))
    ensures ChainTiles(TruncateBoard(g, cut)) == ChainTiles(g)[..cut]
  {
    var f := l => TruncateTile(cut, l);
    FlatMapLetters(g, f);
    TruncateChain(Flat(g), cut, Flat(TruncateBoard(g, cut)));
  }

  lemma TruncateBoardCells(g: Grid, cut: nat)
    requires WellRanked(g)
    ensures var h := TruncateBoard(g, cut);
      forall r, c | InGrid(g, r, c) ::
        && (h[r][c].isSelected <==> g[r][c].isSelected && Cutoff(g[r][c]) < cut)
        && (h[r][c].isSelected ==> h[r][c] == g[r][c])
  {
    forall r, c | InGrid(g, r, c)
      ensures g[r][c].isSelected <==> g[r][c].selectionOrder.Some?
    {
      FlatCell(g, r, c);
    }
  }

  /** Re-tapping the chain's last tile removes just that tile; re-tapping its first empties it. */
  lemma ReselectTailOrHead(g: Grid, row: int, col: int)
    requires WellRanked(g) && InGrid(g, row, col) && g[row][col].isSelected
    ensures var chain := ChainTiles(g);
      var h: Grid := SelectOnBoard(g, row, col).value;
      && |chain| > 0
      && (g[row][col] == chain[|chain| - 1] ==> ChainTiles(h) == chain[..|chain| - 1])
      && (g[row][col] == chain[0] ==> ChainTiles(h) == [])
  {
    SelectSelectedTruncates(g, row, col);
    var chain := ChainTiles(g);
    var cut := Cutoff(g[row][col]);
    ChainRanks(Flat(g));
    assert chain[cut].selectionOrder == Some(cut);
  }

  /**
   * Tapping an unselected tile when the chain is empty, or when the tile
   * touches the chain's last tile, selects it with rank equal to the old
   * chain length, appends it to the chain and changes no other cell.
   */
  lemma SelectExtends(g: Grid, row: int, col: int)
    requires WellRanked(g) && InGrid(g, row, col) && !g[row][col].isSelected
    requires var chain := ChainTiles(g);
      |chain| == 0 || IsAdjacent(chain[|chain| - 1].position, Pos(row, col))
    ensures SelectOnBoard(g, row, col).Success?
    ensures var h := SelectOnBoard(g, row, col).value;
      && WellRanked(h)
      && h[row][col].isSelected
      && h[row][col].selectionOrder == Some(|ChainTiles(g)|)
      && ChainTiles(h) == ChainTiles(g) + [h[row][col]]
      && (forall r, c | InGrid(g, r, c) && (r, c) != (row, col) :: h[r][c] == g[r][c])
  {
    ExtendOnFlat(g, row, col, Extend(g[row][col], |ChainTiles(g)|));
  }

  lemma ExtendOnFlat(g: Grid, row: int, col: int, v: Letter)
    requires WellRanked(g) && InGrid(g, row, col) && !g[row][col].isSelected
    requires v == Extend(g[row][col], |ChainTiles(g)|)
    ensures WellRanked(SetCell(g, row, col, v))
    ensures ChainTiles(SetCell(g, row, col, v)) == ChainTiles(g) + [v]
  {
    var tiles, j := Flat(g), RowStart(g, row) + col;
    var h := SetCell(g, row, col, v);
    assert j < |tiles| && tiles[j] == g[row][col] by {
      FlatCell(g, row, col);
    }
    assert Flat(h) == tiles[j := v] by {
      FlatSetCell(g, row, col, v);
    }
    ExtendChain(tiles, j, Flat(h));
  }

  /**
   * For an unselected tile, the tap changes the board exactly when the
   * chain is empty or the tile touches the chain's last tile; otherwise the
   * board is returned as it was.
   */
  lemma SelectUnselectedChangesIff(g: Grid, row: int, col: int)
    requires InGrid(g, row, col) && !g[row][col].isSelected
    ensures SelectOnBoard(g, row, col).Success?
    ensures var chain := ChainTiles(g);
      (SelectOnBoard(g, row, col).value != g) <==>
        (|chain| == 0 || IsAdjacent(chain[|chain| - 1].position, Pos(row, col)))
  {
    var h: Grid := SelectOnBoard(g, row, col).value;
    if h != g {
      assert h == ExtendBoard(g, row, col);
    }
  }

  /** Every successful tap keeps the rank invariant. */
  lemma SelectKeepsRanks(g: Grid, row: int, col: int)
    requires WellRanked(g)
    ensures SelectOnBoard(g, row, col).Success? ==> WellRanked(SelectOnBoard(g, row, col).value)
  {
    if InGrid(g, row, col) {
      if g[row][col].isSelected {
        SelectSelectedTruncates(g, row, col);
      } else {
        var chain := ChainTiles(g);
        if |chain| == 0 || IsAdjacent(chain[|chain| - 1].position, Pos(row, col)) {
          SelectExtends(g, row, col);
        }
      }
    }
  }

  /**
   * Selection only ever grows the chain from its last tile, so the chain
   * stays a path of touching tiles. The tap is checked against the tapped
   * coordinates while the chain records position fields, so this needs
   * every tile to record its own coordinates.
   */
  lemma SelectKeepsPath(g: Grid, row: int, col: int)
    requires WellRanked(g) && ChainIsPath(g) && CoordinatesMatch(g)
    requires SelectOnBoard(g, row, col).Success?
    ensures ChainIsPath(SelectOnBoard(g, row, col).value)
  {
    if g[row][col].isSelected {
      SelectSelectedTruncates(g, row, col);
      PrefixKeepsPath(g, SelectOnBoard(g, row, col).value);
    } else {
      var chain := ChainTiles(g);
      if |chain| == 0 || IsAdjacent(chain[|chain| - 1].position, Pos(row, col)) {
        SelectExtends(g, row, col);
        var h: Grid := SelectOnBoard(g, row, col).value;
        assert h[row][col].position == Pos(row, col);
        ExtensionKeepsPath(g, h, h[row][col]);
      }
    }
  }

  lemma PrefixKeepsPath(g: Grid, h: Grid)
    requires ChainIsPath(g)
    requires |ChainTiles(h)| <= |ChainTiles(g)|
    requires ChainTiles(h) == ChainTiles(g)[..|ChainTiles(h)|]
    ensures ChainIsPath(h)
  {
    var p, q := ChainPositions(g), ChainPositions(h);
    forall i | 0 < i < |q|
      ensures IsAdjacent(q[i - 1], q[i])
    {
      assert q[i - 1] == p[i - 1] && q[i] == p[i];
    }
  }

  lemma ExtensionKeepsPath(g: Grid, h: Grid, tile: Letter)
    requires ChainIsPath(g)
    requires ChainTiles(h) == ChainTiles(g) + [tile]
    requires |ChainTiles(g)| > 0 ==> IsAdjacent(ChainTiles(g)[|ChainTiles(g)| - 1].position, tile.position)
    ensures ChainIsPath(h)
  {
    var p, q := ChainPositions(g), ChainPositions(h);
    forall i | 0 < i < |q|
      ensures IsAdjacent(q[i - 1], q[i])
    {
      if i < |p| {
        assert q[i - 1] == p[i - 1] && q[i] == p[i];
      } else {
        assert q[i] == tile.position;
      }
    }
  }

  /** The chain's i-th position is a cell of the board, and the tile there is the chain's i-th tile. */
  lemma ChainEntryCell(g: Grid, i: int)
    requires WellRanked(g) && CoordinatesMatch(g)
    requires 0 <= i < |ChainTiles(g)|
    ensures var p := ChainPositions(g)[i];
      InGrid(g, p.row, p.col) && g[p.row][p.col] == ChainTiles(g)[i]
  {
    var m := ChainSource(Flat(g), i);
    var r, c := FlatIndexCell(g, m);
    FlatCell(g, r, c);
    assert g[r][c] == ChainTiles(g)[i];
  }

  /**
   * The refinement between the per-tile ranks and the chain of positions:
   * a cell carries rank i exactly when the chain's i-th position is that cell.
   */
  lemma ChainPositionsRefine(g: Grid, row: int, col: int, i: nat)
    requires WellRanked(g) && CoordinatesMatch(g) && InGrid(g, row, col)
    ensures g[row][col].selectionOrder == Some(i) <==>
      i < |ChainPositions(g)| && ChainPositions(g)[i] == Pos(row, col)
  {
    FlatCell(g, row, col);
    if g[row][col].selectionOrder == Some(i) {
      ChainEntry(Flat(g), RowStart(g, row) + col);
    }
    if i < |ChainPositions(g)| && ChainPositions(g)[i] == Pos(row, col) {
      ChainEntryCell(g, i);
      ChainRanks(Flat(g));
    }
  }

  /** A selected cell is one the chain visits. */
  lemma SelectedCellInChain(g: Grid, row: int, col: int)
    requires WellRanked(g) && CoordinatesMatch(g) && InGrid(g, row, col)
    ensures g[row][col].isSelected ==> Pos(row, col) in ChainPositions(g)
  {
    if g[row][col].isSelected {
      SelectedTileInChain(g, row, col);
      assert ChainPositions(g)[Cutoff(g[row][col])] == Pos(row, col);
    }
  }

  /** The chain visits cells of the board, none of them twice. */
  lemma ChainVisitsDistinctCells(g: Grid)
    requires WellRanked(g) && CoordinatesMatch(g)
    ensures var p := ChainPositions(g);
      && (forall i | 0 <= i < |p| :: InGrid(g, p[i].row, p[i].col))
      && (forall a, b | 0 <= a < b < |p| :: p[a] != p[b])
  {
    var p := ChainPositions(g);
    forall i | 0 <= i < |p|
      ensures InGrid(g, p[i].row, p[i].col)
    {
      ChainEntryCell(g, i);
    }
    forall a, b | 0 <= a < b < |p|
      ensures p[a] != p[b]
    {
      ChainEntryCell(g, a);
      ChainPositionsRefine(g, p[a].row, p[a].col, a);
      ChainPositionsRefine(g, p[a].row, p[a].col, b);
    }
  }

  /** First index at which `x` occurs in `p`, or `|p|`. */
  function IndexOfPos(p: seq<Pos>, x: Pos): (i: nat)
    ensures i <= |p|
    ensures i < |p| ==> p[i] == x
    ensures forall k | 0 <= k < i :: p[k] != x
  {
    if |p| == 0 then 0
    else if p[0] == x then 0
    else 1 + IndexOfPos(p[1..], x)
  }

  /**
   * Selection on the abstract chain of positions: tapping a visited cell
   * cuts the chain back to before it, tapping a cell next to the last one
   * (or any cell of an empty chain) appends it, anything else is ignored.
   */
  function ChainStep(p: seq<Pos>, tapped: Pos): seq<Pos> {
    var i := IndexOfPos(p, tapped);
    if i < |p| then p[..i]
    else if |p| == 0 || IsAdjacent(p[|p| - 1], tapped) then p + [tapped]
    else p
  }

  /**
   * `selectLetter` refines the abstract chain step: on a well-ranked board
   * whose tiles record their own coordinates, the chain of positions after
   * a tap is `ChainStep` of the chain before it.
   */
  lemma SelectRefinesChainStep(g: Grid, row: int, col: int)
    requires WellRanked(g) && CoordinatesMatch(g) && InGrid(g, row, col)
    ensures SelectOnBoard(g, row, col).Success?
    ensures ChainPositions(SelectOnBoard(g, row, col).value) == ChainStep(ChainPositions(g), Pos(row, col))
  {
    FlatCell(g, row, col);
    if g[row][col].isSelected {
      RefineSelectedTap(g, row, col);
    } else {
      RefineUnselectedTap(g, row, col);
    }
  }

  lemma RefineSelectedTap(g: Grid, row: int, col: int)
    requires WellRanked(g) && CoordinatesMatch(g) && InGrid(g, row, col)
    requires g[row][col].isSelected
    ensures SelectOnBoard(g, row, col).Success?
    ensures ChainPositions(SelectOnBoard(g, row, col).value) == ChainStep(ChainPositions(g), Pos(row, col))
  {
    var h: Grid := SelectOnBoard(g, row, col).value;
    var p := ChainPositions(g);
    ChainVisitsDistinctCells(g);
    SelectSelectedTruncates(g, row, col);
    var cut := Cutoff(g[row][col]);
    ChainPositionsRefine(g, row, col, cut);
    assert IndexOfPos(p, Pos(row, col)) == cut;
    PositionsPrefix(ChainTiles(g), cut);
  }

  lemma RefineUnselectedTap(g: Grid, row: int, col: int)
    requires WellRanked(g) && CoordinatesMatch(g) && InGrid(g, row, col)
    requires !g[row][col].isSelected
    ensures SelectOnBoard(g, row, col).Success?
    ensures ChainPositions(SelectOnBoard(g, row, col).value) == ChainStep(ChainPositions(g), Pos(row, col))
  {
    UnselectedNotInChain(g, row, col);
    var chain := ChainTiles(g);
    if |chain| == 0 || IsAdjacent(chain[|chain| - 1].position, Pos(row, col)) {
      RefineExtendingTap(g, row, col);
    } else {
      assert SelectOnBoard(g, row, col) == Success(g);
    }
  }

  lemma RefineExtendingTap(g: Grid, row: int, col: int)
    requires WellRanked(g) && CoordinatesMatch(g) && InGrid(g, row, col)
    requires !g[row][col].isSelected
    requires var chain := ChainTiles(g);
      |chain| == 0 || IsAdjacent(chain[|chain| - 1].position, Pos(row, col))
    ensures SelectOnBoard(g, row, col).Success?
    ensures ChainPositions(SelectOnBoard(g, row, col).value) == ChainPositions(g) + [Pos(row, col)]
  {
    var h: Grid := SelectOnBoard(g, row, col).value;
    SelectExtends(g, row, col);
    PositionsSnoc(ChainTiles(g), h[row][col]);
  }

  lemma UnselectedNotInChain(g: Grid, row: int, col: int)
    requires WellRanked(g) && CoordinatesMatch(g) && InGrid(g, row, col)
    requires !g[row][col].isSelected
    ensures IndexOfPos(ChainPositions(g), Pos(row, col)) == |ChainPositions(g)|
  {
    var p := ChainPositions(g);
    FlatCell(g, row, col);
    forall i | 0 <= i < |p|
      ensures p[i] != Pos(row, col)
    {
      ChainPositionsRefine(g, row, col, i);
    }
  }

  /** A board with nothing selected and no rank anywhere satisfies the rank invariant and has an empty chain. */
  lemma UnselectedBoardWellRanked(g: Grid)
    requires forall row, col | InGrid(g, row, col) :: !g[row][col].isSelected && g[row][col].selectionOrder == None
    ensures WellRanked(g)
    ensures ChainTiles(g) == []
  {
    var tiles := Flat(g);
    forall j | 0 <= j < |tiles|
      ensures tiles[j] == Unselect(tiles[j])
    {
      var row, col := FlatIndexCell(g, j);
      FlatCell(g, row, col);
    }
    ClearChain(tiles, tiles);
  }
}

=== FILE: tile_ids.dfy ===
/**
 * Tile identifiers. Every tile built from a character grid gets the id
 * `${row}-${col}`: the decimal row, a hyphen, the decimal column. The
 * parser below is the inverse used to show that ids are unique per cell.
 */
module TileIds {
  import opened Wrappers

  predicate IsDigit(c: char) {
    '0' <= c <= '9'
  }

  function DigitChar(d: nat): (c: char)
    requires d < 10
    ensures IsDigit(c)
    ensures DigitValue(c) == d
  {
    "0123456789"[d]
  }

  function DigitValue(c: char): nat
    requires IsDigit(c)
  {
    (c as int - '0' as int) as nat
  }

  /** Decimal rendering of a natural number, as a template literal prints it. */
  function NatToString(n: nat): (s: string)
    ensures |s| >= 1
    ensures forall i | 0 <= i < |s| :: IsDigit(s[i])
    decreases n
  {
    if n < 10 then [DigitChar(n)] else NatToString(n / 10) + [DigitChar(n % 10)]
  }

  /** Reads a non-empty string of decimal digits; anything else is `None`. */
  function ParseNat(s: string): Option<nat>
    decreases |s|
  {
    if |s| == 0 || !IsDigit(s[|s| - 1]) then None
    else if |s| == 1 then Some(DigitValue(s[0]))
    else
      match ParseNat(s[..|s| - 1])
      case None => None
      case Some(p) => Some(10 * p + DigitValue(s[|s| - 1]))
  }

  lemma {:induction false} ParseNatToString(n: nat)
    ensures ParseNat(NatToString(n)) == Some(n)
    decreases n
  {
    var s := NatToString(n);
    if n >= 10 {
      ParseNatToString(n / 10);
      assert s[..|s| - 1] == NatToString(n / 10);
    }
  }

  /** The id given to the tile at (row, col). */
  function IdOf(row: nat, col: nat): string {
    NatToString(row) + "-" + NatToString(col)
  }

  /** Index of the first hyphen in `s`, or `|s|` when there is none. */
  function HyphenAt(s: string): (k: nat)
    ensures k <= |s|
    ensures k < |s| ==> s[k] == '-'
    ensures forall i | 0 <= i < k :: s[i] != '-'
  {
    if |s| == 0 then 0
    else if s[0] == '-' then 0
    else 1 + HyphenAt(s[1..])
  }

  /** Splits an id back into its coordinates. */
  function ParseId(s: string): Option<(nat, nat)> {
    var k := HyphenAt(s);
    if k == |s| then None
    else
      match (ParseNat(s[..k]), ParseNat(s[k + 1..]))
      case (Some(row), Some(col)) => Some((row, col))
      case _ => None
  }

  lemma ParseIdOf(row: nat, col: nat)
    ensures ParseId(IdOf(row, col)) == Some((row, col))
  {
    var r, c := NatToString(row), NatToString(col);
    var s := IdOf(row, col);
    assert s[|r|] == '-';
    assert forall i | 0 <= i < |r| :: s[i] == r[i];
    assert HyphenAt(s) == |r|;
    assert s[..|r|] == r;
    assert s[|r| + 1..] == c;
    ParseNatToString(row);
    ParseNatToString(col);
  }

  /** Distinct cells never share an id. */
  lemma IdOfInjective(r1: nat, c1: nat, r2: nat, c2: nat)
    ensures IdOf(r1, c1) == IdOf(r2, c2) <==> r1 == r2 && c1 == c2
  {
    ParseIdOf(r1, c1);
    ParseIdOf(r2, c2);
  }
}

=== FILE: types.dfy ===
/**
 * The data shapes of the game: a tile (`Letter`), a theme and the whole
 * session state (`GameState`), mirrored field for field from the
 * TypeScript interfaces.
 */
module Types {
  import opened Wrappers

  /** Grid coordinates of a tile; JavaScript numbers, so possibly negative. */
  datatype Pos = Pos(row: int, col: int)

  /**
   * One tile. The source field `char` (a one-letter string) is called
   * `symbol` here because `char` is a Dafny type name; it stays a string.
   * `selectionOrder` is the tile's rank in the current selection chain.
   */
  datatype Letter = Letter(
    id: string,
    symbol: string,
    isSelected: bool,
    selectionOrder: Option<nat>,
    position: Pos)

  /** The board: rows of tiles, indexed `letters[row][col]`. */
  type Grid = seq<seq<Letter>>

  datatype Theme = Theme(
    id: string,
    name: string,
    words: seq<string>,
    spangram: string,
    hint: string)

  datatype GameState = GameState(
    letters: Grid,
    theme: Theme,
    foundWords: seq<string>,
    score: int,
    hints: int,
    isGameOver: bool)

  /** What a store action can throw: indexing the board outside its rows or columns. */
  datatype StoreError = CellOutOfGrid(row: int, col: int)
}

=== FILE: wrappers.dfy ===
/** `Option` and `Result` for the game store model. */
module Wrappers {

  /** `number | null` in the store becomes `Option<nat>`. */
  datatype Option<+T> = None | Some(value: T) {

    /** The JavaScript `x ?? default`. */
    function GetOr(default: T): T {
      match this
      case Some(v) => v
      case None => default
    }
  }

  /** The outcome of a store action that may throw instead of returning a state. */
  datatype Result<+R, +E> = Success(value: R) | Failure(error: E)
}
